=== FILE: README.md ===
# NoteBot core, modelled in Dafny

NoteBot is a Discord bot. It listens to a voice channel and keeps one
recorder per speaker. A recorder buffers the speaker's PCM packets until the
speaker has been quiet for five seconds. It then asks a speech-to-text
pipeline for a transcript and appends a transcript entry to the meeting's
document in MongoDB. Later, a meeting reader sorts the entries by time,
renders them as text, has them summarised by either a GPT chat model or a
Hugging Face pipeline, and stores the summary and a title. Before an update
document goes to MongoDB it can be sanitised, so that user-supplied `$` keys
cannot act as operators.

This project models that logic as pure functions over immutable datatypes
and proves properties of it. One module per concern:

- `Wrappers` (wrappers.dfy): `Option`.
- `Seqs` (seqs.dfy): small generic sequence facts used by the proofs.
- `Text` (text.dfy): the Python `str` operations the reader relies on:
  `strip`, `replace`, `split`, `lower` and `in`.
- `Voice` (voice.dfy): speakers, PCM bytes, the silence detector as an
  oracle, packet and clock events, and the single 5-second trailing timer.
- `MeetingStore` (store.dfy): the `meetings` collection as a map from
  `meeting_id` to a document. It supports the two updates the core issues,
  `$push` of a transcript entry and `$set` of summary and title.
- `Recorder` (recorder.dfy): `VoiceRecorder` of voice_recorder.py, a state
  machine driven by packets and clock ticks.
- `Prototype` (prototype.dfy): the earlier recorder in notebot.py, which
  exports numbered mp3 files. Also the per-user recorder registry and the
  voice-state listener that decides when the bot joins a channel.
- `Reader` (reader.dfy): `MeetingReader.read_meeting_transcripts` and the
  `use_chatgpt` decision of meeting_reader.py.
- `Sanitizer` (sanitizer.dfy): `sanitize_data` of mongo_handler.py, over a
  JSON-like tree whose dicts are ordered key/value sequences with Python's
  assignment semantics.

How the outside world is represented:

- `threading.Timer` becomes a timer slot, `Idle` or `Armed(deadline)`.
  Time is an integer number of milliseconds. A `Tick(at)` event stands for
  the clock reaching `at`. A timer fires at its deadline, so the first
  event at or after the deadline, whether a tick or a packet, finds that
  `save_recording` has already run, started at the deadline on the buffer
  as it stood. The prototype recorders in the registry behave the same
  way. Time passing for the registry is `RegistryTick`: every registered
  recorder's own timer fires if it is due, whoever is talking.
- Six outside calls are parameters (oracles):
  - `detect_nonsilent` on the decoded buffer;
  - the transcription pipeline;
  - `datetime.now()`, read twice during a flush (for the file name and for
    the entry), as a function of the flush's start time, its buffer and
    which of the two readings it is, since the work before each reading
    takes a time that depends on the utterance;
  - `strftime(...)` of a reading;
  - the GPT chat model;
  - the Hugging Face summarisation pipeline.
- Two exceptions that can escape `save_recording` are modelled, as a
  `Raised` status: a raising transcription, and `os.path.join` on a missing
  `audioPath`. Nothing in that method catches them. The other calls that
  can raise are taken to succeed (see "Left out").
- Exported audio files are a map from path to bytes.

## Model

| member | source | states |
|---|---|---|
| `Voice.Rearm` | voice_recorder.py:28-33 | After a packet at `now`, exactly one timer is pending. It fires at a later time exactly when `now + 5000` ms has been reached, and never at `now` itself. |
| `MeetingStore.Transcript` | meeting_reader.py:49 | A meeting without a `transcriptions` field reads as an empty transcript. |
| `MeetingStore.Push` | voice_recorder.py:96-100 | `$push` adds the entry at the end of the matching meeting's transcript. Title, summary and all other meetings are unchanged. With no matching meeting, nothing changes. |
| `MeetingStore.SetSummary` | meeting_reader.py:93-110 | `$set` writes the summary, and the title only when one is given, to the matching meeting. Its transcript and all other meetings are unchanged. With no match, nothing changes. |
| `Recorder.NewRecorder` | voice_recorder.py:12-21 | A new recorder has an empty buffer and no pending timer. |
| `Recorder.AddPacket` | voice_recorder.py:23-33 | The buffer becomes the old buffer followed by the packet; the old bytes are untouched. The last-spoken time is `now`. The timer is replaced by one due 5000 ms later. |
| `Recorder.PathJoin` | voice_recorder.py:79 | POSIX `os.path.join`: an absolute name wins, and a `/` is inserted only when the directory is non-empty and lacks one. |
| `Recorder.AudioFileName` | voice_recorder.py:78 | The audio file name is the speaker's name followed by `_`, the stamp and `.mp3`. |
| `Recorder.AudioFileNameInjective` | voice_recorder.py:78 | With stamps of one width, equal file names come from the same speaker name and the same stamp. |
| `Recorder.MakeEntry` | voice_recorder.py:86-93 | The entry carries the speaker's name, the time and the text. It has an `audio_path` exactly when a non-empty path was given. |
| `Recorder.Reset` | voice_recorder.py:58-60 | After a flush that runs to its end, the buffer is empty and the speaker, meeting and timer are unchanged. |
| `Recorder.SaveRecording` | voice_recorder.py:35-60 | The flush gates, in order: empty buffer, then no non-silent range, then empty text. A non-silent buffer whose transcription is non-empty is saved with that text, unless `saveAudio` is set with no `audioPath`. Exactly one entry is pushed then, for this speaker, into this meeting, timestamped with the clock's entry reading, and otherwise none. The file name's stamp is the clock's file-name reading. An audio file is written only when `saveAudio` is set: the buffer, under `audioPath` joined with the file name, which the entry's path names; no other file changes. The status is `Raised` exactly for a raising transcription, or for `saveAudio` with no `audioPath`; then nothing changes, and otherwise the buffer is emptied. |
| `Recorder.Step` | voice_recorder.py:23-60 | A flush happens exactly when the event's time has reached the pending deadline. After it, a packet starts a fresh buffer, unless the flush raised, and re-arms the timer. A tick before the deadline does nothing. Only a saved flush changes the store, by pushing its entry for this speaker. |
| `Recorder.StepFlushesAtDeadline` | voice_recorder.py:32-33 | The flush a step causes is `save_recording` started at the timer's deadline on the buffer as it was before the event. Its entry time and file stamp are the clock's readings for that start and that buffer. |
| `Recorder.NoFlushWhileTalking` | voice_recorder.py:28-33 | While every packet and every tick comes before the quiet period after the latest packet has passed, nothing is flushed and the world is unchanged. The buffer then holds all received bytes in order. |
| `Recorder.PauseSplitsUtterances` | voice_recorder.py:28-33 | Two packets a quiet period or more apart are flushed separately: there is one flush, of the first packet alone, at its deadline. The second packet starts a fresh buffer unless that flush raised. |
| `Recorder.QuietFlushesOnce` | voice_recorder.py:28-33 | With no further packets, a pending timer causes exactly one flush if some tick reaches its deadline, and none otherwise. |
| `Recorder.IdleNeverFlushes` | voice_recorder.py:29-33 | With no timer pending, time passing flushes nothing. |
| `Recorder.StepTranscript` | voice_recorder.py:84-100 | One step adds to the recorder's meeting exactly the entry its flush saved, attributed to its speaker. Every other meeting is unchanged. |
| `Recorder.TranscriptGrowsByFlushes` | voice_recorder.py:84-100 | Over any run, the recorder's meeting gains exactly the entries its flushes saved, in order, all attributed to its speaker. Every other meeting is unchanged. |
| `Prototype.NewProtoRecorder` | notebot.py:19-25 | A new prototype recorder has an empty buffer, no timer and `file_count` 0. |
| `Prototype.ProtoAddPacket` | notebot.py:27-37 | The packet is appended to the buffer and the timer is replaced by one due 5000 ms later. `file_count` is unchanged. |
| `Prototype.Decimal` | notebot.py:50 | `str(n)` is a non-empty string of decimal digits. |
| `Prototype.DecimalInjective` | notebot.py:50 | Different numbers print differently. |
| `Prototype.ExportName` | notebot.py:50 | The export name starts with the user id's digits and an underscore, and its length is the digit counts of the id and the count plus 15. |
| `Prototype.ExportNameInjective` | notebot.py:50 | Two export names `{id}_recording_{n}.mp3` are equal only for the same user id and the same count. |
| `Prototype.ProtoSaveRecording` | notebot.py:39-56 | `file_count` goes up by exactly one when the buffer is non-empty and has a non-silent range, and only then is a file written, under the new count's name. Otherwise nothing is written. The buffer is emptied. |
| `Prototype.LaterExportIsNew` | notebot.py:48-51 | An export never reuses a name written by an earlier export of the same recorder. |
| `Prototype.ProtoPauseSplitsUtterances` | notebot.py:32-56 | Two packets a quiet period or more apart, the first non-silent, are exported separately. The first packet alone goes to the next numbered file, and the second packet starts a fresh buffer. |
| `Prototype.CountOnlyGrows` | notebot.py:46-51 | Over any run, `file_count` never decreases. Every file written is an export numbered above the starting count, and every other file is untouched. |
| `Prototype.ProtoStep` | notebot.py:27-56 | If the event has reached the pending deadline, the buffer has been exported first: under the next number exactly when it held speech, leaving other files alone, and then emptied. A packet then joins the buffer and re-arms the timer. A tick before the deadline changes nothing. |
| `Prototype.Route` | notebot.py:65-69 | The sink callback creates a recorder only for an id not yet registered, hands it the packet, and leaves every other recorder untouched. A new recorder writes no file. Recorders stay filed under their own user's id. |
| `Prototype.RouteKeepsRecorder` | notebot.py:103-106 | A packet from a known id goes to the recorder already there, and no recorder is added. Its user carries over. Before its deadline the buffer grows by the packet and the count and files are kept. At or after it, the old buffer has been exported under the next number if it held speech, and the packet starts a fresh buffer. |
| `Prototype.RegistryTickExports` | notebot.py:36-56 | When time reaches a moment, every registered recorder the tick reaches whose timer is due is emptied with its timer idle. If its buffer held speech, it is exported under its own id and next number, and its count goes up by one. Every other recorder is untouched. The files gain exactly those exports, and no other file changes. |
| `Prototype.TickOrderIrrelevant` | notebot.py:36-37 | The order in which the recorders' timers run does not change the registry or the files afterwards. |
| `Prototype.RouteIsRun` | notebot.py:65-69 | Routing a packet to a known id gives that recorder and the files exactly what running it on the one packet gives. |
| `Prototype.OnVoiceStateUpdate` | notebot.py:85-114 | A connect is attempted exactly when the member is not a bot, was in no channel before, is in one now, and the guild has no voice client. An attempt joins exactly when `connect()` succeeds. Only a join changes the guild, and then to the joined channel. |
| `Prototype.ConnectedStaysPut` | notebot.py:92-96 | Once the bot is connected, no voice-state event moves it. |
| `Prototype.BotsNeverConnect` | notebot.py:88-89 | Events from bot members never change the guild. |
| `Text.Strip` | meeting_reader.py:84 | `strip()` gives a piece of the input that starts and ends with non-whitespace. Everything cut from either end is whitespace. |
| `Text.StripKeepsOut` | meeting_reader.py:88 | Stripping introduces no character. |
| `Text.StripStripped` | meeting_reader.py:90-91 | Stripping a stripped string changes nothing. |
| `Text.ContainsAt` | meeting_reader.py:25 | The `in` substring test holds exactly when the pattern occurs at some index. |
| `Text.ReplaceAll` | meeting_reader.py:90-91 | `replace` leaves a string without the pattern unchanged. It adds only characters of the input or the replacement. With an empty replacement it never lengthens, and shortens any string containing the pattern. |
| `Text.ReplaceFirst` | meeting_reader.py:90-91 | An occurrence of the pattern is replaced, the text before it kept, and replacing resumes after it, whenever the pattern's first character does not occur before it. |
| `Text.RemoveLeading` | meeting_reader.py:90 | A leading occurrence of the pattern is removed by `replace(p, "")`. |
| `Text.Split` | meeting_reader.py:87 | `split` on one character gives at least one piece. No piece contains the separator, and the first piece is the prefix before the first separator. |
| `Text.JoinSplit` | meeting_reader.py:87 | Joining the pieces of a split with the separator gives the original string back. |
| `Text.SplitJoin` | meeting_reader.py:87 | Splitting the join of separator-free pieces gives the pieces back. |
| `Text.Lower` | meeting_reader.py:25 | `lower()` keeps the length and folds each ASCII capital to lower case. |
| `Reader.UseChatgpt` | meeting_reader.py:25 | A reader uses GPT exactly when a model id is configured and `gpt` occurs in it, ignoring case. |
| `Reader.NewMeetingReader` | meeting_reader.py:18-34 | An OpenAI client is created exactly for a GPT model, and `use_chatgpt` is set exactly then. |
| `Reader.BranchFollowsModel` | meeting_reader.py:62 | For a constructed reader, the GPT branch is taken exactly for GPT model ids. |
| `Reader.Insert` | meeting_reader.py:50 | Inserting into a time-sorted transcript keeps it sorted and adds exactly one entry. Entries with the same timestamp keep their order, with the new one last. |
| `Reader.SortByTime` | meeting_reader.py:50 | The sorted transcript is a permutation of the input with non-decreasing timestamps. For each timestamp, its entries keep their input order (stability). |
| `Reader.StableSortUnique` | meeting_reader.py:50 | Sortedness plus per-timestamp order determine the result, so any stable sort by timestamp gives the same sequence. |
| `Reader.Render` | meeting_reader.py:53-57 | The rendered text is empty exactly when the transcript is empty. |
| `Reader.RenderOneLinePerEntry` | meeting_reader.py:53-57 | With single-line names and texts, the rendered text splits into exactly one line `user: "text"` per entry, in order, and ends with a newline. |
| `Reader.ExtractTitle` | meeting_reader.py:87-91 | The title is stripped and is a single line. |
| `Reader.TitleUnlabelled` | meeting_reader.py:87-91 | A first line without `Title:` in it becomes the title as it stands, stripped. |
| `Reader.TitleAfterLabel` | meeting_reader.py:87-91 | A summary whose first line is `Meeting Title: ` plus a title yields that title. |
| `Reader.TitleAfterShortLabel` | meeting_reader.py:87-91 | A summary whose first line is `Title: ` plus a title yields that title: the first `replace` finds nothing and the second removes the label. |
| `Reader.ReadMeetingTranscripts` | meeting_reader.py:36-112 | No meeting: returns None and writes nothing. Otherwise it returns the summary it writes. Only that meeting's summary and title change. The GPT branch stores the stripped reply and the title extracted from it. The pipeline branch stores its first result, or the default text when it returns nothing, and no title. |
| `Reader.TranscriptText` | meeting_reader.py:49-57 | A meeting without transcripts yields empty text. |
| `Sanitizer.RenameKey` | mongo_handler.py:26-33 | The four operators and keys not starting with `$` are kept. Any other `$k` becomes `_k`. The result starts with `$` only if it is an operator. |
| `Sanitizer.Put` | mongo_handler.py:28-33 | `d[k] = v`: an existing key keeps its place, a new key goes to the end, and the keys stay distinct. |
| `Sanitizer.PutLookup` | mongo_handler.py:28-33 | After `d[k] = v`, `k` holds `v` and every other key holds what it held before. |
| `Sanitizer.PutElements` | mongo_handler.py:28-33 | `d[k] = v` adds no pair other than `(k, v)`. |
| `Sanitizer.Renamed` | mongo_handler.py:25-33 | Each entry, in order, gets its renamed key and its sanitised value. Every such pair may appear in clean output. |
| `Sanitizer.FromPairs` | mongo_handler.py:24-33 | Assigning pairs in order gives a dict with distinct keys, in order of first assignment, each holding its last value, and no more entries than pairs. |
| `Sanitizer.Sanitize` | mongo_handler.py:21-38 | At every depth, every `$` key of the output is an operator and dict keys are distinct. A dict stays a dict with no more keys. A list maps element-wise with the same length. A scalar is returned unchanged. |
| `Sanitizer.FromPairsDistinct` | mongo_handler.py:24-25 | Pairs with distinct keys come back unchanged. |
| `Sanitizer.SanitizeCleanIsIdentity` | mongo_handler.py:21-38 | A document that is already clean is its own sanitised form. |
| `Sanitizer.SanitizeIdempotent` | mongo_handler.py:21-38 | Sanitising twice is the same as sanitising once. |
| `Sanitizer.EntryLands` | mongo_handler.py:24-34 | Each entry is found under its renamed key with its value sanitised, unless a later entry lands on the same key. |
| `Sanitizer.OperatorKept` | mongo_handler.py:26-28 | An operator key is kept verbatim with its value sanitised. |
| `Sanitizer.DollarKeyRenamed` | mongo_handler.py:29-31 | Any other `$k` is stored as `_k` with its value sanitised, unless a later `_k` entry takes that key, and `$k` itself is gone. |
| `Sanitizer.SharedNameLaterWins` | mongo_handler.py:24-33 | Two keys with the same sanitised name collapse into one entry holding the later value. |
| `Sanitizer.CollisionLaterWins` | mongo_handler.py:29-33 | `$a` and `_a` collide, and whichever comes later wins, in either order. |

## Left out

- The audio numerics are not modelled: pydub decoding, the mono 16 kHz
  resampling, and the float normalisation (voice_recorder.py:38-40, 62-66).
  The silence detector sees the raw buffer and returns its ranges. The
  transcription oracle sees the raw buffer and returns the pipeline's
  `"text"` or raises.
- `threading.Timer` concurrency is not modelled. A flush is taken to
  happen at once at its deadline, while in the code `save_recording` runs
  on the timer's thread for as long as decoding, transcription and the
  export take. Packets that `add_packet` writes during that time land in
  the old buffer and are thrown away when it is replaced
  (voice_recorder.py:59); the model loses no packet. A timer firing while
  a packet is being added is outside the model as well; events are handled
  one at a time, and a packet that arrives exactly at the deadline comes
  after the flush. In the registry, the timers of different speakers run on
  their own threads; `RegistryTick` runs them one after another, in an
  order given as a parameter. Events are not required to come in time order; the run lemmas
  hold for any order.
- Recorder.SaveRecording: only a raising transcription and a missing
  `audioPath` are modelled as exceptions. `AudioSegment.from_raw`
  (voice_recorder.py:38-40), `export` (voice_recorder.py:80) and
  `update_entry` (voice_recorder.py:96-100) are taken to succeed. In the
  code, a failure in any of them also escapes and leaves the buffer as it
  was; a failing `update_entry` does so after the audio file is written.
- Prototype.ProtoSaveRecording: `from_raw` and `export` (notebot.py:43,
  51) are taken to succeed. In the code, a failing `export` escapes after
  `file_count` has gone up (notebot.py:49), so that number is skipped and
  the buffer is not reset (notebot.py:55-56).
- Sanitizer.Sanitize: documents hold only dicts with string keys, lists
  and scalars. `sanitize_data` returns any other value unchanged
  (mongo_handler.py:37-38), so a tuple, or a mapping that is not a `dict`,
  keeps any `$` keys inside it; the model cannot express such a value, and
  its "clean at every depth" promise does not cover them. A non-string key
  makes `key.startswith` raise (mongo_handler.py:26); that is not modelled
  either.
- MongoDB I/O is left out: the client, the ping, and CRUD other than the two
  updates above. The collection is a map with one document per
  `meeting_id`. `update_entry` does not call `sanitize_data`, so the two are
  modelled separately.
- The OpenAI and Hugging Face calls, their prompt text and model parameters
  are oracles. The chat oracle receives the rendered transcript rather than
  the full prompt. Device selection in setup_model.py and
  meeting_reader.py:20-22 depends on the hardware and is left out.
- Discord plumbing is left out: the opus loading, `bot.run`, the commands
  `test`, `stop` and `die`, and all `print` logging. The `test` command's
  callback is the same registry code as the listener's and is modelled by
  `Prototype.Route`.
- The `recording` field of both recorders is left out. It is only ever set
  to an empty segment.
- Entries are typed records, so a stored transcript entry missing `user`,
  `transcription` or `timestamp` (a `KeyError` in the reader) cannot be
  expressed. Timestamps are integers rather than `datetime` values.
- Reader.ReadMeetingTranscripts: the reader record is free, so it also
  covers `use_chatgpt` without a client, which the constructor never
  builds (meeting_reader.py:27-34). For it the model takes the pipeline
  branch, where the program would raise `AttributeError` on the missing
  `self.summarizer` (meeting_reader.py:101). `Reader.BranchFollowsModel`
  states the branch for constructed readers.
- Text.Lower: folds ASCII letters only. Python's `lower()` folds all of
  Unicode; only the `gpt` test depends on it.
- Text.ReplaceAll: requires a non-empty pattern. The code only replaces
  the two non-empty labels. Python's empty-pattern behaviour is not modelled.
- Text.ReplaceFirst: states the replacement of an occurrence only when the
  pattern's first character does not occur before it. An occurrence after
  a partial match of the pattern is replaced by the same definition, but no
  lemma states it.
- Text.Strip: `strip()` with no argument removes the characters Python's
  `str.isspace` accepts. That set is written out character by character.
- The reader's "Untitled Meeting" fallback (meeting_reader.py:88) is kept
  as written, but `split('\n')` always returns at least one piece, so it is
  never used.
- Behaviours described for the product but absent from this code are not
  modelled: a participant minimum, meeting creation and closing, direct
  messages to participants, and catching transcription errors. Where the
  description and the code disagree, the model follows the code: an
  exception in the transcription escapes `save_recording`, so the buffer is
  not reset (voice_recorder.py:49, 59-60).
- `saveAudio` set with no `audioPath` makes `os.path.join(None, ...)` raise
  before any file or entry is written. The model treats this like any other
  escaping exception.

=== FILE: prototype.dfy ===
/** The earlier prototype in notebot.py: a recorder that exports each
    utterance to a numbered mp3 file, the per-user registry that routes
    packets to recorders, and the voice-state listener that decides when
    the bot joins a channel. */
module Prototype {

  import opened Wrappers
  import opened Voice
  import opened Seqs

  /** The prototype `VoiceRecorder` (notebot.py:19-25). `recording` is
      always `AudioSegment.empty()` and is left out. */
  datatype ProtoRecorder = ProtoRecorder(
    user: Member,
    buffer: seq<byte>,
    lastSpoken: int,
    timer: Timer,
    fileCount: nat)

  /** Exported mp3 files by name, relative to the working directory. */
  type Files = map<string, seq<byte>>

  /** A fresh recorder for `user` (notebot.py:19-25). */
  function NewProtoRecorder(user: Member, now: int): (p: ProtoRecorder)
    ensures p.user == user && p.buffer == [] && p.timer == Idle && p.fileCount == 0
  {
    ProtoRecorder(user, [], now, Idle, 0)
  }

  /** `add_packet` (notebot.py:27-37): append, note the time, and replace
      the pending timer by a fresh one. */
  function ProtoAddPacket(p: ProtoRecorder, data: seq<byte>, now: int): (p': ProtoRecorder)
    ensures p'.buffer == p.buffer + data
    ensures p'.timer == Armed(now + QuietPeriod)
    ensures p'.user == p.user && p'.fileCount == p.fileCount && p'.lastSpoken == now
  {
    p.(buffer := p.buffer + data, lastSpoken := now, timer := Rearm(p.timer, now))
  }

  /** The decimal digit for `d`. */
  function Digit(d: nat): (c: char)
    requires d < 10
    ensures '0' <= c <= '9'
  {
    ('0' as int + d) as char
  }

  /** `str(n)` for a natural number. */
  function Decimal(n: nat): (s: string)
    ensures |s| >= 1
    ensures forall i :: 0 <= i < |s| ==> '0' <= s[i] <= '9'
    ensures n >= 10 ==> |s| >= 2
  {
    if n < 10 then [Digit(n)] else Decimal(n / 10) + [Digit(n % 10)]
  }

  /** Distinct numbers print differently. */
  lemma {:induction false} DecimalInjective(a: nat, b: nat)
    requires Decimal(a) == Decimal(b)
    ensures a == b
    decreases a
  {
    var s := Decimal(a);
    if a < 10 && b < 10 {
    } else if a >= 10 && b >= 10 {
      assert s[|s| - 1] == Digit(a % 10) == Digit(b % 10);
      assert Decimal(a / 10) == s[..|s| - 1] == Decimal(b / 10);
      DecimalInjective(a / 10, b / 10);
    }
  }

  /** The name an export is written to (notebot.py:50). */
  function ExportName(userId: nat, count: nat): (name: string)
    ensures |name| == |Decimal(userId)| + |Decimal(count)| + 15
    ensures name[..|Decimal(userId)|] == Decimal(userId) && name[|Decimal(userId)|] == '_'
  {
    Decimal(userId) + "_recording_" + Decimal(count) + ".mp3"
  }

  /** Two exports share a name only if they come from the same user with
      the same count, so one recorder never overwrites its own files and
      two users never overwrite each other's (notebot.py:50). */
  lemma ExportNameInjective(u1: nat, c1: nat, u2: nat, c2: nat)
    requires ExportName(u1, c1) == ExportName(u2, c2)
    ensures u1 == u2 && c1 == c2
  {
    var d1, d2 := Decimal(c1), Decimal(c2);
    var t1, t2 := "_recording_" + (d1 + ".mp3"), "_recording_" + (d2 + ".mp3");
    Regroup(Decimal(u1), "_recording_", d1, ".mp3");
    Regroup(Decimal(u2), "_recording_", d2, ".mp3");
    DigitsBeforeUnderscore(Decimal(u1), t1, Decimal(u2), t2);
    DecimalInjective(u1, u2);
    CancelPrefix("_recording_", d1 + ".mp3", d2 + ".mp3");
    CancelSuffix(d1, d2, ".mp3");
    DecimalInjective(c1, c2);
  }

  /** A digit string followed by `_...` splits at the first underscore. */
  lemma DigitsBeforeUnderscore(d1: string, t1: string, d2: string, t2: string)
    requires forall i :: 0 <= i < |d1| ==> '0' <= d1[i] <= '9'
    requires forall i :: 0 <= i < |d2| ==> '0' <= d2[i] <= '9'
    requires t1 != [] && t1[0] == '_' && t2 != [] && t2[0] == '_'
    requires d1 + t1 == d2 + t2
    ensures d1 == d2 && t1 == t2
  {
    var m := if |d1| < |d2| then |d1| else |d2|;
    assert (d1 + t1)[m] == (d2 + t2)[m];
    assert (d1 + t1)[m] == '_' <==> m == |d1|;
    assert (d2 + t2)[m] == '_' <==> m == |d2|;
    assert d1 == (d1 + t1)[..|d1|] == (d2 + t2)[..|d2|] == d2;
    CancelPrefix(d1, t1, t2);
  }

  /** `save_recording` (notebot.py:39-56): a non-empty buffer with speech in
      it is exported under the next number, and the buffer is emptied.
      Exports are taken to succeed. */
  function ProtoSaveRecording(p: ProtoRecorder, files: Files, nonsilent: Detector): (res: (ProtoRecorder, Files))
    ensures res.0.buffer == []
    ensures res.0.user == p.user && res.0.timer == p.timer
    ensures res.0.fileCount == if p.buffer != [] && nonsilent(p.buffer) != [] then p.fileCount + 1 else p.fileCount
    ensures res.0.fileCount == p.fileCount ==> res.1 == files
    ensures res.0.fileCount != p.fileCount ==>
              res.1 == files[ExportName(p.user.id, res.0.fileCount) := p.buffer]
  {
    if p.buffer != [] && nonsilent(p.buffer) != [] then
      var n := p.fileCount + 1;
      (p.(buffer := [], fileCount := n), files[ExportName(p.user.id, n) := p.buffer])
    else
      (p.(buffer := []), files)
  }

  /** Successive exports of one recorder never reuse a name: every name a
      later flush writes differs from the one an earlier flush wrote. */
  lemma LaterExportIsNew(p: ProtoRecorder, files: Files, nonsilent: Detector, q: ProtoRecorder, files': Files)
    requires (q, files') == ProtoSaveRecording(p, files, nonsilent)
    requires q.fileCount != p.fileCount
    ensures forall c :: 1 <= c <= p.fileCount ==> ExportName(p.user.id, c) != ExportName(q.user.id, q.fileCount)
  {
    forall c | 1 <= c <= p.fileCount
      ensures ExportName(p.user.id, c) != ExportName(q.user.id, q.fileCount)
    {
      if ExportName(p.user.id, c) == ExportName(q.user.id, q.fileCount) {
        ExportNameInjective(p.user.id, c, q.user.id, q.fileCount);
      }
    }
  }

  /** One event reaching a prototype recorder. A pending timer whose
      deadline `e.at` has reached has already fired and run
      `save_recording` (notebot.py:36-37, 39-56); only then does a packet
      go to `add_packet`. Any other tick does nothing. */
  function ProtoStep(p: ProtoRecorder, files: Files, nonsilent: Detector, e: Event): (res: (ProtoRecorder, Files))
    ensures res.0.user == p.user
    ensures res.0.buffer == (if p.timer.Due(e.at) then [] else p.buffer) + (if e.Packet? then e.data else [])
    ensures res.0.fileCount ==
              if p.timer.Due(e.at) && p.buffer != [] && nonsilent(p.buffer) != [] then p.fileCount + 1 else p.fileCount
    ensures res.0.fileCount == p.fileCount ==> res.1 == files
    ensures res.0.fileCount != p.fileCount ==>
              res.1 == files[ExportName(p.user.id, res.0.fileCount) := p.buffer]
    ensures e.Packet? ==> res.0.timer == Armed(e.at + QuietPeriod)
    ensures e.Tick? && !p.timer.Due(e.at) ==> res == (p, files)
    ensures e.Tick? && p.timer.Due(e.at) ==> res.0 == p.(buffer := [], timer := Idle, fileCount := res.0.fileCount)
  {
    var f := if p.timer.Due(e.at) then ProtoSaveRecording(p.(timer := Idle), files, nonsilent) else (p, files);
    (if e.Packet? then ProtoAddPacket(f.0, e.data, e.at) else f.0, f.1)
  }

  /** Feed `evs` to a prototype recorder, one `ProtoStep` at a time. */
  function ProtoRun(p: ProtoRecorder, files: Files, nonsilent: Detector, evs: seq<Event>): (ProtoRecorder, Files)
    decreases |evs|
  {
    if evs == [] then (p, files)
    else
      var f := ProtoStep(p, files, nonsilent, evs[0]);
      ProtoRun(f.0, f.1, nonsilent, evs[1..])
  }

  /** Speech resumed a quiet period or more after a packet is exported on
      its own: the first packet's bytes go to the next numbered file and
      the new packet starts a fresh buffer (notebot.py:32-37, 48-56). */
  lemma ProtoPauseSplitsUtterances(p: ProtoRecorder, files: Files, nonsilent: Detector,
                                   d1: seq<byte>, t1: int, d2: seq<byte>, t2: int)
    requires p.buffer == [] && p.timer == Idle
    requires d1 != [] && nonsilent(d1) != []
    requires t1 + QuietPeriod <= t2
    ensures var (q, files') := ProtoRun(p, files, nonsilent, [Packet(d1, t1), Packet(d2, t2)]);
            && q.buffer == d2
            && q.fileCount == p.fileCount + 1
            && files' == files[ExportName(p.user.id, p.fileCount + 1) := d1]
  {
    var evs := [Packet(d1, t1), Packet(d2, t2)];
    var f1 := ProtoStep(p, files, nonsilent, evs[0]);
    assert f1.0.buffer == d1 && f1.0.fileCount == p.fileCount && f1.1 == files;
    assert f1.0.timer == Armed(t1 + QuietPeriod);
    var f2 := ProtoStep(f1.0, f1.1, nonsilent, evs[1]);
    assert evs[1..][1..] == [];
    assert ProtoRun(f1.0, f1.1, nonsilent, evs[1..]) == ProtoRun(f2.0, f2.1, nonsilent, []) == f2;
    assert ProtoRun(p, files, nonsilent, evs) == ProtoRun(f1.0, f1.1, nonsilent, evs[1..]);
  }

  /** The names of the exports numbered `from + 1` to `to`. */
  function ExportsBetween(userId: nat, from: nat, to: nat): set<string> {
    set c: nat | from < c <= to :: ExportName(userId, c)
  }

  /** Over any run, `file_count` never goes down and every file written is
      one of the exports numbered after the starting count, so a run never
      overwrites an earlier export (notebot.py:46-50). */
  lemma {:induction false} CountOnlyGrows(p: ProtoRecorder, files: Files, nonsilent: Detector, evs: seq<Event>)
    ensures var (q, files') := ProtoRun(p, files, nonsilent, evs);
            && q.fileCount >= p.fileCount
            && q.user == p.user
            && files.Keys <= files'.Keys
            && files'.Keys <= files.Keys + ExportsBetween(p.user.id, p.fileCount, q.fileCount)
            && (forall k :: k in files && k !in ExportsBetween(p.user.id, p.fileCount, q.fileCount)
                  ==> files'[k] == files[k])
    decreases |evs|
  {
    if evs != [] {
      var (q0, files0) := ProtoStep(p, files, nonsilent, evs[0]);
      CountOnlyGrows(q0, files0, nonsilent, evs[1..]);
      var (q, files') := ProtoRun(q0, files0, nonsilent, evs[1..]);
      assert ExportsBetween(p.user.id, q0.fileCount, q.fileCount)
          <= ExportsBetween(p.user.id, p.fileCount, q.fileCount);
      if q0.fileCount != p.fileCount {
        assert ExportName(p.user.id, q0.fileCount) in ExportsBetween(p.user.id, p.fileCount, q.fileCount);
      }
    }
  }

  /** The `recorders` dict of the cog, keyed by user id. */
  type Registry = map<nat, ProtoRecorder>

  /** Every recorder is filed under its own user's id. */
  predicate Keyed(reg: Registry) {
    forall id :: id in reg ==> reg[id].user.id == id
  }

  /** The sink callback (notebot.py:65-69 and 102-106): create a recorder
      for an id seen for the first time, then hand it the packet. The
      recorder's timer, if already due, has exported its buffer first. */
  function Route(reg: Registry, files: Files, nonsilent: Detector, user: Member, data: seq<byte>, now: int)
    : (res: (Registry, Files))
    ensures res.0.Keys == reg.Keys + {user.id}
    ensures forall id :: id in reg && id != user.id ==> res.0[id] == reg[id]
    ensures user.id !in reg ==> res.0[user.id] == ProtoAddPacket(NewProtoRecorder(user, now), data, now) && res.1 == files
    ensures Keyed(reg) ==> Keyed(res.0)
  {
    var p := if user.id in reg then reg[user.id] else NewProtoRecorder(user, now);
    var (q, files') := ProtoStep(p, files, nonsilent, Packet(data, now));
    (reg[user.id := q], files')
  }

  /** Later packets from a known id go to the recorder already there,
      whatever `Member` object the platform passes this time
      (notebot.py:66-69): its user carries over. While its timer is
      pending the packet joins the buffer and the count is kept; once the
      timer is due, the old buffer has been exported under the next
      number (if it held speech) and the packet starts a fresh one. */
  lemma RouteKeepsRecorder(reg: Registry, files: Files, nonsilent: Detector, user: Member, data: seq<byte>, now: int)
    requires user.id in reg
    ensures var (reg', files') := Route(reg, files, nonsilent, user, data, now);
            var p := reg[user.id];
            && |reg'| == |reg|
            && reg'[user.id].user == p.user
            && (!p.timer.Due(now) ==>
                  reg'[user.id].buffer == p.buffer + data && reg'[user.id].fileCount == p.fileCount && files' == files)
            && (p.timer.Due(now) ==>
                  && reg'[user.id].buffer == data
                  && reg'[user.id].fileCount
                     == (if p.buffer != [] && nonsilent(p.buffer) != [] then p.fileCount + 1 else p.fileCount)
                  && files'
                     == if p.buffer != [] && nonsilent(p.buffer) != []
                        then files[ExportName(p.user.id, p.fileCount + 1) := p.buffer] else files)
  {
    assert Route(reg, files, nonsilent, user, data, now).0.Keys == reg.Keys;
  }

  /** Routing a packet to a known id is the same as running that recorder
      on the one packet: the registry adds nothing to a recorder's life. */
  lemma RouteIsRun(reg: Registry, files: Files, nonsilent: Detector, user: Member, data: seq<byte>, now: int)
    requires user.id in reg
    ensures var (reg', files') := Route(reg, files, nonsilent, user, data, now);
            (reg'[user.id], files') == ProtoRun(reg[user.id], files, nonsilent, [Packet(data, now)])
  {
    assert [Packet(data, now)][1..] == [];
  }

  /** A recorder whose timer is due at `at` and whose buffer holds speech:
      its timer exports a file. */
  predicate Exports(p: ProtoRecorder, nonsilent: Detector, at: int) {
    p.timer.Due(at) && p.buffer != [] && nonsilent(p.buffer) != []
  }

  /** Time reaching `at` for the whole registry: each recorder's own timer
      fires if it is due, whoever is talking (notebot.py:36-37, 39-56).
      `order` is the order in which the timer threads run; an id that is
      not registered is skipped, and a repeated id finds its timer idle. */
  function RegistryTick(reg: Registry, files: Files, nonsilent: Detector, at: int, order: seq<nat>)
    : (res: (Registry, Files))
    ensures res.0.Keys == reg.Keys
    decreases |order|
  {
    if order == [] then (reg, files)
    else if order[0] !in reg then RegistryTick(reg, files, nonsilent, at, order[1..])
    else
      var (q, files1) := ProtoStep(reg[order[0]], files, nonsilent, Tick(at));
      RegistryTick(reg[order[0] := q], files1, nonsilent, at, order[1..])
  }

  /** The names the due recorders of `order` export at `at`. */
  function TickExports(reg: Registry, nonsilent: Detector, at: int, order: seq<nat>): set<string> {
    set id | id in reg && id in order && Exports(reg[id], nonsilent, at) :: ExportName(id, reg[id].fileCount + 1)
  }

  /** A due recorder once its timer has run: emptied, timer idle, and the
      count one higher if it exported. */
  function Fired(p: ProtoRecorder, nonsilent: Detector, at: int): ProtoRecorder {
    p.(buffer := [], timer := Idle,
       fileCount := if Exports(p, nonsilent, at) then p.fileCount + 1 else p.fileCount)
  }

  /** When time reaches `at`, every due recorder the tick reaches has
      exported its buffer under its own next name, if the buffer held
      speech, and is emptied with its timer idle; every other recorder is
      untouched. No other file changes. So a speaker who stops talking
      still has the last utterance exported, and the order the timers run
      in does not matter. */
  lemma RegistryTickExports(reg: Registry, files: Files, nonsilent: Detector, at: int, order: seq<nat>)
    requires Keyed(reg)
    ensures var (reg', files') := RegistryTick(reg, files, nonsilent, at, order);
            && (forall id :: id in reg ==>
                  reg'[id] == if id in order && reg[id].timer.Due(at) then Fired(reg[id], nonsilent, at) else reg[id])
            && files'.Keys == files.Keys + TickExports(reg, nonsilent, at, order)
            && (forall id :: id in reg && id in order && Exports(reg[id], nonsilent, at) ==>
                  files'[ExportName(id, reg[id].fileCount + 1)] == reg[id].buffer)
            && (forall k :: k in files && k !in TickExports(reg, nonsilent, at, order) ==> files'[k] == files[k])
  {
    TickRecorders(reg, files, nonsilent, at, order);
    TickKeys(reg, files, nonsilent, at, order);
    TickKept(reg, files, nonsilent, at, order);
    TickLands(reg, files, nonsilent, at, order);
  }

  /** The order in which the timers run does not matter: two orders that
      reach the same recorders leave the same registry and the same files. */
  lemma TickOrderIrrelevant(reg: Registry, files: Files, nonsilent: Detector, at: int, o1: seq<nat>, o2: seq<nat>)
    requires Keyed(reg)
    requires forall id :: id in reg ==> (id in o1 <==> id in o2)
    ensures RegistryTick(reg, files, nonsilent, at, o1) == RegistryTick(reg, files, nonsilent, at, o2)
  {
    RegistryTickExports(reg, files, nonsilent, at, o1);
    RegistryTickExports(reg, files, nonsilent, at, o2);
    var (r1, f1) := RegistryTick(reg, files, nonsilent, at, o1);
    var (r2, f2) := RegistryTick(reg, files, nonsilent, at, o2);
    var t := TickExports(reg, nonsilent, at, o1);
    assert t == TickExports(reg, nonsilent, at, o2);
    assert r1 == r2;
    forall k | k in f1
      ensures f1[k] == f2[k]
    {
      if k in t {
        var id :| id in reg && id in o1 && Exports(reg[id], nonsilent, at) && k == ExportName(id, reg[id].fileCount + 1);
      }
    }
    assert f1 == f2;
  }

  /** A tick's first recorder, when registered, is stepped on its own and
      the rest of `order` runs against what it left. */
  lemma TickHead(reg: Registry, files: Files, nonsilent: Detector, at: int, order: seq<nat>)
    requires order != [] && order[0] in reg
    ensures var x := order[0];
            var (q, files1) := ProtoStep(reg[x], files, nonsilent, Tick(at));
            && RegistryTick(reg, files, nonsilent, at, order) == RegistryTick(reg[x := q], files1, nonsilent, at, order[1..])
            && q == (if reg[x].timer.Due(at) then Fired(reg[x], nonsilent, at) else reg[x])
            && !q.timer.Due(at)
            && q.user == reg[x].user
            && files1 == if Exports(reg[x], nonsilent, at)
                         then files[ExportName(reg[x].user.id, reg[x].fileCount + 1) := reg[x].buffer] else files
  {
  }

  /** Every id of `order` is its head or in its tail. */
  lemma InOrder(order: seq<nat>, id: nat)
    requires id in order
    ensures id == order[0] || id in order[1..]
  {
    var i :| 0 <= i < |order| && order[i] == id;
    if i > 0 { assert order[1..][i - 1] == id; }
  }

  /** The recorders after a tick. */
  lemma {:induction false} TickRecorders(reg: Registry, files: Files, nonsilent: Detector, at: int, order: seq<nat>)
    ensures var reg' := RegistryTick(reg, files, nonsilent, at, order).0;
            forall id :: id in reg ==>
              reg'[id] == if id in order && reg[id].timer.Due(at) then Fired(reg[id], nonsilent, at) else reg[id]
    decreases |order|
  {
    if order == [] {
    } else if order[0] !in reg {
      TickRecorders(reg, files, nonsilent, at, order[1..]);
      forall id | id in reg && id in order { InOrder(order, id); }
    } else {
      var x := order[0];
      TickHead(reg, files, nonsilent, at, order);
      var (q, files1) := ProtoStep(reg[x], files, nonsilent, Tick(at));
      TickRecorders(reg[x := q], files1, nonsilent, at, order[1..]);
      forall id | id in reg && id in order { InOrder(order, id); }
    }
  }

  /** The first step of a tick over a keyed registry: what it writes, and
      how the exports of the whole tick split. */
  lemma TickStep(reg: Registry, files: Files, nonsilent: Detector, at: int, order: seq<nat>)
    requires Keyed(reg) && order != [] && order[0] in reg
    ensures var x := order[0];
            var (q, files1) := ProtoStep(reg[x], files, nonsilent, Tick(at));
            var name := ExportName(x, reg[x].fileCount + 1);
            && RegistryTick(reg, files, nonsilent, at, order) == RegistryTick(reg[x := q], files1, nonsilent, at, order[1..])
            && Keyed(reg[x := q])
            && files1 == (if Exports(reg[x], nonsilent, at) then files[name := reg[x].buffer] else files)
            && name !in TickExports(reg[x := q], nonsilent, at, order[1..])
            && TickExports(reg, nonsilent, at, order)
               == TickExports(reg[x := q], nonsilent, at, order[1..])
                  + (if Exports(reg[x], nonsilent, at) then {name} else {})
  {
    var x := order[0];
    TickHead(reg, files, nonsilent, at, order);
    var (q, files1) := ProtoStep(reg[x], files, nonsilent, Tick(at));
    assert Keyed(reg[x := q]);
    TickSplit(reg, nonsilent, at, order, q);
    NameFresh(reg[x := q], nonsilent, at, order[1..], x, reg[x].fileCount + 1);
  }

  /** A tick over ids none of which is registered changes nothing. */
  lemma TickSkip(reg: Registry, files: Files, nonsilent: Detector, at: int, order: seq<nat>)
    requires order != [] && order[0] !in reg
    ensures RegistryTick(reg, files, nonsilent, at, order) == RegistryTick(reg, files, nonsilent, at, order[1..])
    ensures TickExports(reg, nonsilent, at, order) == TickExports(reg, nonsilent, at, order[1..])
  {
    forall id | id in reg && id in order { InOrder(order, id); }
  }

  /** A tick adds exactly its exports' names to the files. */
  lemma {:induction false} TickKeys(reg: Registry, files: Files, nonsilent: Detector, at: int, order: seq<nat>)
    requires Keyed(reg)
    ensures RegistryTick(reg, files, nonsilent, at, order).1.Keys == files.Keys + TickExports(reg, nonsilent, at, order)
    decreases |order|
  {
    if order == [] {
      assert TickExports(reg, nonsilent, at, order) == {};
    } else if order[0] !in reg {
      TickSkip(reg, files, nonsilent, at, order);
      TickKeys(reg, files, nonsilent, at, order[1..]);
    } else {
      var x := order[0];
      TickStep(reg, files, nonsilent, at, order);
      var (q, files1) := ProtoStep(reg[x], files, nonsilent, Tick(at));
      TickKeys(reg[x := q], files1, nonsilent, at, order[1..]);
    }
  }

  /** A tick leaves every file that is not one of its exports alone. */
  lemma {:induction false} TickKept(reg: Registry, files: Files, nonsilent: Detector, at: int, order: seq<nat>)
    requires Keyed(reg)
    ensures var files' := RegistryTick(reg, files, nonsilent, at, order).1;
            forall k :: k in files && k !in TickExports(reg, nonsilent, at, order) ==> k in files' && files'[k] == files[k]
    decreases |order|
  {
    if order == [] {
    } else if order[0] !in reg {
      TickSkip(reg, files, nonsilent, at, order);
      TickKept(reg, files, nonsilent, at, order[1..]);
    } else {
      var x := order[0];
      TickStep(reg, files, nonsilent, at, order);
      var (q, files1) := ProtoStep(reg[x], files, nonsilent, Tick(at));
      TickKept(reg[x := q], files1, nonsilent, at, order[1..]);
    }
  }

  /** Every export of a tick holds the buffer its recorder had. */
  lemma {:induction false} TickLands(reg: Registry, files: Files, nonsilent: Detector, at: int, order: seq<nat>)
    requires Keyed(reg)
    ensures var files' := RegistryTick(reg, files, nonsilent, at, order).1;
            forall id :: id in reg && id in order && Exports(reg[id], nonsilent, at) ==>
              ExportName(id, reg[id].fileCount + 1) in files'
              && files'[ExportName(id, reg[id].fileCount + 1)] == reg[id].buffer
    decreases |order|
  {
    if order == [] {
    } else if order[0] !in reg {
      TickSkip(reg, files, nonsilent, at, order);
      TickLands(reg, files, nonsilent, at, order[1..]);
      forall id | id in reg && id in order { InOrder(order, id); }
    } else {
      var x := order[0];
      TickStep(reg, files, nonsilent, at, order);
      var (q, files1) := ProtoStep(reg[x], files, nonsilent, Tick(at));
      TickLands(reg[x := q], files1, nonsilent, at, order[1..]);
      TickKept(reg[x := q], files1, nonsilent, at, order[1..]);
      var files' := RegistryTick(reg[x := q], files1, nonsilent, at, order[1..]).1;
      ExportsLand(reg, q, files', nonsilent, at, order);
    }
  }

  /** The exports of a tick step are those of its first recorder and of the rest. */
  lemma ExportsLand(reg: Registry, q: ProtoRecorder, files': Files, nonsilent: Detector, at: int, order: seq<nat>)
    requires order != [] && order[0] in reg
    requires var x := order[0];
             Exports(reg[x], nonsilent, at) ==>
               var n := ExportName(x, reg[x].fileCount + 1); n in files' && files'[n] == reg[x].buffer
    requires var reg1 := reg[order[0] := q];
             forall id :: id in reg1 && id in order[1..] && Exports(reg1[id], nonsilent, at) ==>
               ExportName(id, reg1[id].fileCount + 1) in files'
               && files'[ExportName(id, reg1[id].fileCount + 1)] == reg1[id].buffer
    ensures forall id :: id in reg && id in order && Exports(reg[id], nonsilent, at) ==>
              ExportName(id, reg[id].fileCount + 1) in files'
              && files'[ExportName(id, reg[id].fileCount + 1)] == reg[id].buffer
  {
    forall id | id in reg && id in order && Exports(reg[id], nonsilent, at)
      ensures ExportName(id, reg[id].fileCount + 1) in files'
      ensures files'[ExportName(id, reg[id].fileCount + 1)] == reg[id].buffer
    {
      InOrder(order, id);
    }
  }

  /** A recorder that does not export at `at` leaves no name of its id
      among a tick's exports, so its own export name is not among them. */
  lemma NameFresh(reg: Registry, nonsilent: Detector, at: int, order: seq<nat>, x: nat, count: nat)
    requires x in reg ==> !Exports(reg[x], nonsilent, at)
    ensures ExportName(x, count) !in TickExports(reg, nonsilent, at, order)
  {
    if ExportName(x, count) in TickExports(reg, nonsilent, at, order) {
      var y :| y in reg && y in order && Exports(reg[y], nonsilent, at)
               && ExportName(x, count) == ExportName(y, reg[y].fileCount + 1);
      ExportNameInjective(x, count, y, reg[y].fileCount + 1);
    }
  }

  /** The exports of a tick are the first recorder's, if it exports, and
      those of the rest of `order` against the registry the first tick left. */
  lemma TickSplit(reg: Registry, nonsilent: Detector, at: int, order: seq<nat>, q: ProtoRecorder)
    requires order != [] && order[0] in reg && !Exports(q, nonsilent, at)
    ensures var x := order[0];
            TickExports(reg, nonsilent, at, order)
            == TickExports(reg[x := q], nonsilent, at, order[1..])
               + (if Exports(reg[x], nonsilent, at) then {ExportName(x, reg[x].fileCount + 1)} else {})
  {
    forall id | id in order { InOrder(order, id); }
  }

  /** A channel the bot can join. */
  type ChannelId = nat

  /** `member.guild.voice_client`: the channel the bot is connected to, if any. */
  datatype Guild = Guild(voiceClient: Option<ChannelId>)

  /** A voice-state event: who, and the channel before and after. */
  datatype VoiceUpdate = VoiceUpdate(member: Member, before: Option<ChannelId>, after: Option<ChannelId>)

  /** What the listener did. */
  datatype Reaction = Ignored | Connected(channel: ChannelId) | ConnectFailed

  /** `on_voice_state_update` (notebot.py:85-114). `connects` says whether
      `connect()` succeeds; its exceptions are caught and only logged. */
  function OnVoiceStateUpdate(g: Guild, u: VoiceUpdate, connects: bool): (res: (Guild, Reaction))
    ensures !res.1.Ignored? <==>
              !u.member.isBot && u.before.None? && u.after.Some? && g.voiceClient.None?
    ensures res.1.Connected? ==> res.1.channel == u.after.value
    ensures !res.1.Ignored? ==> (res.1.Connected? <==> connects)
    ensures res.0.voiceClient != g.voiceClient ==> res.1.Connected?
    ensures res.1.Connected? ==> res.0.voiceClient == Some(res.1.channel)
  {
    if u.member.isBot then (g, Ignored)
    else if u.before.None? && u.after.Some? then
      if g.voiceClient.None? then
        if connects then (Guild(Some(u.after.value)), Connected(u.after.value))
        else (g, ConnectFailed)
      else (g, Ignored)
    else (g, Ignored)
  }

  /** Feed a run of voice-state events to the listener; `connects[i]` is
      whether the i-th connect attempt would succeed. */
  function Listen(g: Guild, us: seq<VoiceUpdate>, connects: seq<bool>): Guild
    requires |connects| == |us|
    decreases |us|
  {
    if us == [] then g
    else Listen(OnVoiceStateUpdate(g, us[0], connects[0]).0, us[1..], connects[1..])
  }

  /** Once connected, no voice-state event moves the bot: the connection
      guard means it joins at most one channel (notebot.py:96). */
  lemma {:induction false} ConnectedStaysPut(g: Guild, us: seq<VoiceUpdate>, connects: seq<bool>)
    requires |connects| == |us|
    requires g.voiceClient.Some?
    ensures Listen(g, us, connects) == g
    decreases |us|
  {
    if us != [] {
      ConnectedStaysPut(OnVoiceStateUpdate(g, us[0], connects[0]).0, us[1..], connects[1..]);
    }
  }

  /** Bot members never make the bot connect, whatever else happens. */
  lemma {:induction false} BotsNeverConnect(g: Guild, us: seq<VoiceUpdate>, connects: seq<bool>)
    requires |connects| == |us|
    requires forall i :: 0 <= i < |us| ==> us[i].member.isBot
    ensures Listen(g, us, connects) == g
    decreases |us|
  {
    if us != [] {
      BotsNeverConnect(g, us[1..], connects[1..]);
    }
  }
}

=== FILE: reader.dfy ===
/** `MeetingReader` of meeting_reader.py: reads one meeting's transcript,
    renders it in time order, has it summarised, and stores the summary
    (and, for a GPT model, a title taken from the summary's first line).
    Both summarisers are oracles. */
module Reader {

  import opened Wrappers
  import opened Text
  import opened Seqs
  import opened MeetingStore

  /** The summary stored when the pipeline returns nothing
      (meeting_reader.py:59). */
  const DefaultSummary: string := "No summary available for this meeting."

  /** The title meant for a summary without a first line
      (meeting_reader.py:88). `split` never returns an empty list, so
      the branch that uses it is never taken. */
  const UntitledMeeting: string := "Untitled Meeting"

  /** The reader's configuration, fixed by its constructor
      (meeting_reader.py:11-34): the model id, whether it is a GPT model,
      and whether an OpenAI client was created. */
  datatype MeetingReader = MeetingReader(modelId: Option<string>, useChatgpt: bool, hasClient: bool)

  /** The two summarisers: the chat model's reply to a prompt holding the
      transcript text, and the Hugging Face pipeline's list of
      `summary_text` values. */
  datatype Summarisers = Summarisers(chat: string -> string, pipeline: string -> seq<string>)

  /** What `read_meeting_transcripts` returns, and the collection after it. */
  datatype Read = Read(result: Option<string>, store: Store)

  /** `self.use_chatgpt` (meeting_reader.py:25): a model id is configured
      and "gpt" occurs in it, ignoring ASCII case. */
  function UseChatgpt(modelId: Option<string>): (r: bool)
    ensures r <==> modelId.Some? && exists i :: OccursAt(Lower(modelId.value), "gpt", i)
  {
    if modelId.None? || modelId.value == [] then false
    else
      ContainsAt(Lower(modelId.value), "gpt");
      Contains(Lower(modelId.value), "gpt")
  }

  /** The constructor's choice of summariser (meeting_reader.py:18-34): an
      OpenAI client exactly when the model is a GPT model. */
  function NewMeetingReader(modelId: Option<string>): (rd: MeetingReader)
    ensures rd.modelId == modelId
    ensures rd.hasClient <==> UseChatgpt(modelId)
    ensures rd.useChatgpt <==> UseChatgpt(modelId)
  {
    var gpt := UseChatgpt(modelId);
    MeetingReader(modelId, gpt, gpt)
  }

  /** The entries of `s` with timestamp `t`, in order. */
  function WithTime(s: seq<Entry>, t: int): seq<Entry> {
    if s == [] then []
    else WithTime(s[..|s| - 1], t) + (if s[|s| - 1].timestamp == t then [s[|s| - 1]] else [])
  }

  /** Timestamps never decrease along `s`. */
  predicate SortedByTime(s: seq<Entry>) {
    forall i, j :: 0 <= i < j < |s| ==> s[i].timestamp <= s[j].timestamp
  }

  /** Place `x` after every entry of the sorted `s` that is not later than it. */
  function Insert(x: Entry, s: seq<Entry>): (r: seq<Entry>)
    requires SortedByTime(s)
    ensures SortedByTime(r)
    ensures multiset(r) == multiset(s) + multiset{x}
    ensures forall t :: WithTime(r, t) == WithTime(s, t) + (if x.timestamp == t then [x] else [])
  {
    if s == [] then
      assert [x][..0] == [];
      [x]
    else if s[|s| - 1].timestamp <= x.timestamp then
      AppendLatest(x, s);
      s + [x]
    else
      var init, last := s[..|s| - 1], s[|s| - 1];
      SortedFront(s);
      var r' := Insert(x, init);
      DropLast(s);
      InsertBelow(x, init, last, r');
      InsertWithTime(x, init, last, r');
      r' + [last]
  }

  /** An entry no earlier than the last of a sorted sequence goes at its end. */
  lemma AppendLatest(x: Entry, s: seq<Entry>)
    requires SortedByTime(s) && s != [] && s[|s| - 1].timestamp <= x.timestamp
    ensures SortedByTime(s + [x])
    ensures forall t :: WithTime(s + [x], t) == WithTime(s, t) + (if x.timestamp == t then [x] else [])
  {
    assert (s + [x])[..|s|] == s;
  }

  /** The front of a sorted sequence is sorted and no later than its end. */
  lemma SortedFront(s: seq<Entry>)
    requires SortedByTime(s) && s != []
    ensures SortedByTime(s[..|s| - 1])
    ensures forall i :: 0 <= i < |s| - 1 ==> s[i].timestamp <= s[|s| - 1].timestamp
  {
  }

  /** The per-timestamp step of `Insert`: `last` is later than `x`, so it
      never shares a timestamp with it. */
  lemma InsertWithTime(x: Entry, init: seq<Entry>, last: Entry, r': seq<Entry>)
    requires x.timestamp < last.timestamp
    requires forall t :: WithTime(r', t) == WithTime(init, t) + (if x.timestamp == t then [x] else [])
    ensures forall t :: WithTime(r' + [last], t)
                        == WithTime(init + [last], t) + (if x.timestamp == t then [x] else [])
  {
    forall t
      ensures WithTime(r' + [last], t)
              == WithTime(init + [last], t) + (if x.timestamp == t then [x] else [])
    {
      assert (r' + [last])[..|r'|] == r';
      assert (init + [last])[..|init|] == init;
    }
  }

  /** Appending an entry that is not earlier than anything in `r'` keeps
      `r'` sorted. */
  lemma InsertBelow(x: Entry, init: seq<Entry>, last: Entry, r': seq<Entry>)
    requires x.timestamp <= last.timestamp
    requires forall i :: 0 <= i < |init| ==> init[i].timestamp <= last.timestamp
    requires multiset(r') == multiset(init) + multiset{x}
    requires SortedByTime(r')
    ensures SortedByTime(r' + [last])
  {
    forall i | 0 <= i < |r'|
      ensures r'[i].timestamp <= last.timestamp
    {
      assert r'[i] in multiset(r');
      if r'[i] != x {
        assert r'[i] in multiset(init);
        var j :| 0 <= j < |init| && init[j] == r'[i];
      }
    }
  }

  /** `sorted(transcripts, key=lambda t: t["timestamp"])`
      (meeting_reader.py:50): a stable sort by timestamp. */
  function SortByTime(s: seq<Entry>): (r: seq<Entry>)
    ensures SortedByTime(r)
    ensures multiset(r) == multiset(s)
    ensures forall t :: WithTime(r, t) == WithTime(s, t)
  {
    if s == [] then []
    else
      assert s[..|s| - 1] + [s[|s| - 1]] == s;
      Insert(s[|s| - 1], SortByTime(s[..|s| - 1]))
  }

  /** No entry of `s` is as late as `t`, so none has timestamp `t`. */
  lemma {:induction false} WithTimeAbove(s: seq<Entry>, t: int)
    requires forall i :: 0 <= i < |s| ==> s[i].timestamp < t
    ensures WithTime(s, t) == []
  {
    if s != [] {
      WithTimeAbove(s[..|s| - 1], t);
    }
  }

  /** The last entry of `s` is among the entries with its timestamp. */
  lemma WithTimeOfLast(s: seq<Entry>)
    requires s != []
    ensures WithTime(s, s[|s| - 1].timestamp) != []
  {
  }

  /** Two time-sorted sequences with the same entries per timestamp, in the
      same order, are equal: the contract of `SortByTime` determines its
      result, and it is the result of any stable sort by timestamp. */
  lemma {:induction false} StableSortUnique(r: seq<Entry>, q: seq<Entry>)
    requires SortedByTime(r) && SortedByTime(q)
    requires forall t :: WithTime(r, t) == WithTime(q, t)
    ensures r == q
    decreases |r| + |q|
  {
    if r == [] && q == [] {
    } else if r == [] {
      WithTimeOfLast(q);
    } else if q == [] {
      WithTimeOfLast(r);
    } else {
      var r', a := r[..|r| - 1], r[|r| - 1];
      var q', b := q[..|q| - 1], q[|q| - 1];
      if a.timestamp < b.timestamp {
        WithTimeAbove(r, b.timestamp);
      } else if b.timestamp < a.timestamp {
        WithTimeAbove(q, a.timestamp);
      } else {
        var T := a.timestamp;
        var x, y := WithTime(r', T), WithTime(q', T);
        assert WithTime(r, T) == x + [a];
        assert WithTime(q, T) == y + [b];
        assert x + [a] == y + [b];
        assert |x| == |y|;
        assert a == (x + [a])[|x|] == (y + [b])[|y|] == b;
        assert x == (x + [a])[..|x|] == (y + [b])[..|y|] == y;
        forall t
          ensures WithTime(r', t) == WithTime(q', t)
        {
          if t != T {
            assert WithTime(r, t) == WithTime(q, t);
            assert WithTime(r', t) == WithTime(r, t);
            assert WithTime(q', t) == WithTime(q, t);
          }
        }
        StableSortUnique(r', q');
        assert r == r' + [a] && q == q' + [b];
      }
    }
  }

  /** One rendered transcript line without its newline:
      `user: "transcription"` (meeting_reader.py:55-57). */
  function Body(e: Entry): string {
    e.user + ": \"" + e.transcription + "\""
  }

  /** The text the loop at meeting_reader.py:53-57 accumulates: one line
      per entry, each ending in a newline. */
  function Render(es: seq<Entry>): (text: string)
    ensures es == [] <==> text == []
  {
    if es == [] then [] else Body(es[0]) + "\n" + Render(es[1..])
  }

  /** The bodies of the rendered lines, in order. */
  function Bodies(es: seq<Entry>): (bs: seq<string>)
    ensures |bs| == |es|
    ensures forall i :: 0 <= i < |es| ==> bs[i] == Body(es[i])
  {
    seq(|es|, i requires 0 <= i < |es| => Body(es[i]))
  }

  /** No user name or transcription has a newline in it. */
  predicate SingleLine(es: seq<Entry>) {
    forall i :: 0 <= i < |es| ==> '\n' !in es[i].user && '\n' !in es[i].transcription
  }

  /** When names and transcriptions are single-line, the rendered text is
      exactly one line per entry, in order, followed by nothing
      (meeting_reader.py:53-57). */
  lemma {:induction false} RenderOneLinePerEntry(es: seq<Entry>)
    requires SingleLine(es)
    ensures Split(Render(es), '\n') == Bodies(es) + [[]]
  {
    if es != [] {
      var rest := es[1..];
      assert SingleLine(rest) by {
        forall i | 0 <= i < |rest|
          ensures '\n' !in rest[i].user && '\n' !in rest[i].transcription
        {
          assert rest[i] == es[i + 1];
        }
      }
      RenderOneLinePerEntry(rest);
      BodySingleLine(es[0]);
      assert Render(es) == Body(es[0]) + ['\n'] + Render(rest);
      SplitAfter(Body(es[0]), Render(rest), '\n');
      assert Bodies(es) == [Body(es[0])] + Bodies(rest);
    }
  }

  /** A single-line entry renders to a single-line body. */
  lemma BodySingleLine(e: Entry)
    requires '\n' !in e.user && '\n' !in e.transcription
    ensures '\n' !in Body(e)
  {
    assert '\n' !in ": \"" && '\n' !in "\"";
  }

  /** The title `read_meeting_transcripts` derives from a GPT summary
      (meeting_reader.py:87-91): the stripped first line with every
      "Meeting Title: " and then every "Title:" removed, stripped again. */
  function ExtractTitle(summary: string): (title: string)
    ensures IsStripped(title)
    ensures '\n' !in title
  {
    var lines := Split(summary, '\n');
    var first := if |lines| > 0 then Strip(lines[0]) else UntitledMeeting;
    StripKeepsOut(lines[0], '\n');
    var t1 := Strip(ReplaceAll(first, "Meeting Title: ", ""));
    StripKeepsOut(ReplaceAll(first, "Meeting Title: ", ""), '\n');
    StripKeepsOut(ReplaceAll(t1, "Title:", ""), '\n');
    Strip(ReplaceAll(t1, "Title:", ""))
  }

  /** "Meeting Title: " contains "Title:", so a string free of the latter is
      free of the former. */
  lemma LabelInside(s: string)
    requires Contains(s, "Meeting Title: ")
    ensures Contains(s, "Title:")
  {
    ContainsAt(s, "Meeting Title: ");
    var i :| OccursAt(s, "Meeting Title: ", i);
    SubSlice(s, i, i + 15, 8, 14);
    assert "Meeting Title: "[8..14] == "Title:";
    assert OccursAt(s, "Title:", i + 8);
    ContainsAt(s, "Title:");
  }

  /** A first line without a label is the title as it stands, stripped
      (meeting_reader.py:87-91). */
  lemma {:induction false} TitleUnlabelled(summary: string)
    requires !Contains(Strip(Split(summary, '\n')[0]), "Title:")
    ensures ExtractTitle(summary) == Strip(Split(summary, '\n')[0])
  {
    var first := Strip(Split(summary, '\n')[0]);
    if Contains(first, "Meeting Title: ") {
      LabelInside(first);
    }
    StripStripped(first);
  }

  /** A summary whose first line is "Meeting Title: " followed by a title
      yields that title (meeting_reader.py:87-91). */
  lemma {:induction false} TitleAfterLabel(t: string, rest: string)
    requires t != [] && IsStripped(t) && '\n' !in t
    requires !Contains(t, "Title:")
    ensures ExtractTitle("Meeting Title: " + t + "\n" + rest) == t
  {
    LabelledFirstLine("Meeting Title: ", t, rest);
    LabelRemoved(t);
    StripStripped(t);
  }

  /** A summary whose first line carries the short label "Title:" yields
      the title after it: the first `replace` finds nothing and the second
      removes the label (meeting_reader.py:87-91). */
  lemma {:induction false} TitleAfterShortLabel(t: string, rest: string)
    requires t != [] && IsStripped(t) && '\n' !in t
    requires !Contains(t, "Title:")
    ensures ExtractTitle("Title: " + t + "\n" + rest) == t
  {
    LabelledFirstLine("Title: ", t, rest);
    ShortLabelRemoved(t);
  }

  /** Both `replace` calls and strips, applied to "Title: " and a title,
      leave the title. */
  lemma ShortLabelRemoved(t: string)
    requires t != [] && IsStripped(t)
    requires !Contains(t, "Title:")
    ensures Strip(ReplaceAll(Strip(ReplaceAll("Title: " + t, "Meeting Title: ", "")), "Title:", "")) == t
  {
    var line := "Title: " + t;
    ShortLabelKept(t);
    StripStripped(line);
    assert line == "Title:" + (" " + t);
    RemoveLeading("Title:", " " + t);
    NotInPrefix(" ", t, "Title:");
    StripLeadingSpace(t);
  }

  /** A line labelled "Title: " holds no "Meeting Title: ", so the first
      `replace` leaves it as it is. */
  lemma ShortLabelKept(t: string)
    requires !Contains(t, "Title:")
    ensures ReplaceAll("Title: " + t, "Meeting Title: ", "") == "Title: " + t
  {
    if Contains(t, "Meeting Title: ") {
      LabelInside(t);
    }
    NotInPrefix("Title: ", t, "Meeting Title: ");
  }

  /** The stripped first line of a summary that starts with `tag` and a
      title is that labelled line. */
  lemma LabelledFirstLine(tag: string, t: string, rest: string)
    requires tag != [] && !IsSpace(tag[0]) && '\n' !in tag
    requires t != [] && IsStripped(t) && '\n' !in t
    ensures Strip(Split(tag + t + "\n" + rest, '\n')[0]) == tag + t
  {
    var line := tag + t;
    assert tag + t + "\n" + rest == line + ['\n'] + rest;
    assert '\n' !in line;
    SplitAfter(line, rest, '\n');
    assert line[0] == tag[0];
    assert line[|line| - 1] == t[|t| - 1];
    StripStripped(line);
  }

  /** Removing the "Meeting Title: " label leaves the title. */
  lemma {:induction false} LabelRemoved(t: string)
    requires IsStripped(t) && !Contains(t, "Title:")
    ensures Strip(ReplaceAll("Meeting Title: " + t, "Meeting Title: ", "")) == t
  {
    RemoveLeading("Meeting Title: ", t);
    if Contains(t, "Meeting Title: ") {
      LabelInside(t);
    }
    StripStripped(t);
  }

  /** The whole of `read_meeting_transcripts` (meeting_reader.py:36-112). */
  function ReadMeetingTranscripts(rd: MeetingReader, db: Store, id: string, sm: Summarisers): (out: Read)
    // no meeting: None, and nothing is written
    ensures id !in db ==> out == Read(None, db)
    // a meeting: the value returned is the summary written
    ensures id in db ==> out.result.Some? && out.store.Keys == db.Keys
                         && out.store[id].summary == out.result
    // only the summary and title of this meeting change
    ensures id in db ==> out.store[id].transcriptions == db[id].transcriptions
    ensures forall k :: k in db && k != id ==> out.store[k] == db[k]
    // GPT branch: summary is the stripped reply, title taken from it
    ensures id in db && rd.useChatgpt && rd.hasClient ==>
              && out.result.value == Strip(sm.chat(TranscriptText(db[id])))
              && out.store[id].title == Some(ExtractTitle(out.result.value))
    // pipeline branch: first pipeline result or the default text, no title
    ensures id in db && !(rd.useChatgpt && rd.hasClient) ==>
              && out.store[id].title == db[id].title
              && out.result.value == (if sm.pipeline(TranscriptText(db[id])) == [] then DefaultSummary
                                      else sm.pipeline(TranscriptText(db[id]))[0])
  {
    if id !in db then Read(None, db)
    else
      var text := TranscriptText(db[id]);
      if rd.useChatgpt && rd.hasClient then
        var summary := Strip(sm.chat(text));
        Read(Some(summary), SetSummary(db, id, Some(ExtractTitle(summary)), summary))
      else
        var out := sm.pipeline(text);
        var summary := if |out| > 0 then out[0] else DefaultSummary;
        Read(Some(summary), SetSummary(db, id, None, summary))
  }

  /** The text handed to the summariser: the meeting's transcript (empty
      when the field is missing) sorted by time and rendered
      (meeting_reader.py:49-57). */
  function TranscriptText(m: Meeting): (text: string)
    ensures m.transcriptions.None? ==> text == []
  {
    Render(SortByTime(Transcript(m)))
  }

  /** For a reader built by its constructor, the GPT branch is taken exactly
      for GPT model ids (meeting_reader.py:25-34, 62). */
  lemma BranchFollowsModel(modelId: Option<string>)
    ensures var rd := NewMeetingReader(modelId);
            (rd.useChatgpt && rd.hasClient) <==> UseChatgpt(modelId)
  {
  }
}

=== FILE: recorder.dfy ===
/** `VoiceRecorder` of voice_recorder.py: one speaker's utterance buffer in
    a meeting, flushed to the meeting's transcript after a quiet period.
    The pydub decoding, the silence detector, the speech-to-text pipeline
    and the wall clock are passed in as oracles. */
module Recorder {

  import opened Wrappers
  import opened Voice
  import opened MeetingStore

  /** The outcome of `transcribe_recording`: the pipeline's `"text"`, or an
      exception, which nothing in `save_recording` catches. */
  datatype Transcribed = Text(text: string) | Raises

  /** The two places a flush reads `datetime.now()`: for the audio file
      name (voice_recorder.py:78) and for the entry (voice_recorder.py:86). */
  datatype Reading = FileName | EntryTime

  /** The collaborators a flush consults. `transcribe` sees the buffered
      bytes (the mono 16 kHz conversion in front of it is part of the
      oracle). `clock(start, bytes, k)` is the wall clock when a flush the
      timer started at `start` on `bytes` reaches reading `k`: decoding,
      detection, transcription and export take a time that depends on the
      utterance. `stamp` is `strftime('%Y%m%d_%H%M%S')` of a reading. */
  datatype Oracles = Oracles(
    nonsilent: Detector,
    transcribe: seq<byte> -> Transcribed,
    clock: (int, seq<byte>, Reading) -> int,
    stamp: int -> string)

  /** The two keys of the settings dict a recorder reads. */
  datatype Settings = Settings(saveAudio: bool, audioPath: Option<string>)

  /** Everything outside the recorder a flush can change: the meetings
      collection and the exported audio files by path. */
  datatype World = World(store: Store, files: map<string, seq<byte>>)

  /** The recorder's own state (voice_recorder.py:12-21). `recording` is
      always `AudioSegment.empty()` and is left out. */
  datatype VoiceRecorder = VoiceRecorder(
    user: Member,
    meetingId: string,
    buffer: seq<byte>,
    lastSpoken: int,
    timer: Timer)

  /** How a flush ended. */
  datatype Status =
    | EmptyBuffer        // nothing buffered (voice_recorder.py:36)
    | Silent             // no non-silent range (voice_recorder.py:47)
    | NoText             // the transcription is empty (voice_recorder.py:50)
    | Saved(entry: Entry) // one entry pushed (voice_recorder.py:56)
    | Raised             // an exception escaped `save_recording`

  /** A flush's resulting recorder and world, and how it ended. */
  datatype Flush = Flush(rec: VoiceRecorder, world: World, status: Status)

  /** A fresh recorder (voice_recorder.py:12-21). */
  function NewRecorder(user: Member, meetingId: string, now: int): (r: VoiceRecorder)
    ensures r.user == user && r.meetingId == meetingId
    ensures r.buffer == [] && r.timer == Idle
  {
    VoiceRecorder(user, meetingId, [], now, Idle)
  }

  /** `add_packet` (voice_recorder.py:23-33): append the bytes, note the
      time, and replace any pending timer by a fresh one. */
  function AddPacket(r: VoiceRecorder, data: seq<byte>, now: int): (r': VoiceRecorder)
    ensures r'.buffer == r.buffer + data
    ensures r'.buffer[..|r.buffer|] == r.buffer
    ensures r'.lastSpoken == now
    ensures r'.timer == Armed(now + QuietPeriod)
    ensures r'.user == r.user && r'.meetingId == r.meetingId
  {
    r.(buffer := r.buffer + data, lastSpoken := now, timer := Rearm(r.timer, now))
  }

  /** `os.path.join(directory, name)` on POSIX. */
  function PathJoin(directory: string, name: string): (p: string)
    ensures name != [] && name[0] == '/' ==> p == name
    ensures name != [] && name[0] != '/' && (directory == [] || directory[|directory| - 1] == '/')
            ==> p == directory + name
    ensures name != [] && name[0] != '/' && directory != [] && directory[|directory| - 1] != '/'
            ==> p == directory + "/" + name
    ensures |p| >= |name|
  {
    if name != [] && name[0] == '/' then name
    else if directory == [] || directory[|directory| - 1] == '/' then directory + name
    else directory + "/" + name
  }

  /** The file name `save_audio_file` exports to (voice_recorder.py:78). */
  function AudioFileName(user: Member, stamp: string): (name: string)
    ensures |name| == |user.name| + |stamp| + 5
    ensures name[..|user.name|] == user.name
    ensures name[|user.name|..] == "_" + stamp + ".mp3"
  {
    user.name + "_" + stamp + ".mp3"
  }

  /** Stamps of one fixed width keep file names apart: the name gives back
      both the speaker's name and the stamp (voice_recorder.py:78). */
  lemma AudioFileNameInjective(u1: Member, s1: string, u2: Member, s2: string)
    requires |s1| == |s2|
    requires AudioFileName(u1, s1) == AudioFileName(u2, s2)
    ensures u1.name == u2.name && s1 == s2
  {
    var n := AudioFileName(u1, s1);
    assert |u1.name| == |u2.name|;
    assert u1.name == n[..|u1.name|] == u2.name;
    var tail := n[|u1.name|..];
    assert s1 == tail[1..|tail| - 4] == s2;
  }

  /** `save_transcription_to_db`'s entry (voice_recorder.py:86-93): the
      `audio_path` key is present only for a non-empty path. */
  function MakeEntry(user: Member, now: int, text: string, audioPath: Option<string>): (e: Entry)
    ensures e.user == user.name && e.timestamp == now && e.transcription == text
    ensures e.audioPath.Some? <==> audioPath.Some? && audioPath.value != []
    ensures e.audioPath.Some? ==> e.audioPath == audioPath
  {
    Entry(user.name, now, text,
          if audioPath.Some? && audioPath.value != [] then audioPath else None)
  }

  /** The recorder after a flush that ran to its end: buffer emptied
      (voice_recorder.py:59-60). */
  function Reset(r: VoiceRecorder): (r': VoiceRecorder)
    ensures r'.buffer == []
    ensures r'.user == r.user && r'.meetingId == r.meetingId && r'.timer == r.timer
  {
    r.(buffer := [])
  }

  /** `save_recording` (voice_recorder.py:35-60), started by the timer at
      time `start`; its clock readings come from `o.clock`. */
  function SaveRecording(r: VoiceRecorder, w: World, o: Oracles, s: Settings, start: int): (f: Flush)
    // the three gates, in order, and what passing all of them leads to
    ensures r.buffer == [] ==> f.status == EmptyBuffer
    ensures r.buffer != [] && o.nonsilent(r.buffer) == [] ==> f.status == Silent
    ensures f.status == NoText <==>
              r.buffer != [] && o.nonsilent(r.buffer) != [] && o.transcribe(r.buffer) == Text([])
    ensures r.buffer != [] && o.nonsilent(r.buffer) != []
            && o.transcribe(r.buffer).Text? && o.transcribe(r.buffer).text != []
            && !(s.saveAudio && s.audioPath.None?)
            ==> f.status.Saved? && f.status.entry.transcription == o.transcribe(r.buffer).text
    ensures f.status.Saved? ==>
              && r.buffer != [] && o.nonsilent(r.buffer) != []
              && o.transcribe(r.buffer) == Text(f.status.entry.transcription)
              && f.status.entry.transcription != []
    // at most one entry, for this speaker, in this meeting
    ensures f.status.Saved? ==> f.world.store == Push(w.store, r.meetingId, f.status.entry)
    ensures !f.status.Saved? ==> f.world.store == w.store
    ensures f.status.Saved? ==>
              && f.status.entry.user == r.user.name
              && f.status.entry.timestamp == o.clock(start, r.buffer, EntryTime)
    // audio is written only when it is configured, and only for a saved entry
    ensures f.world.files != w.files ==> f.status.Saved? && s.saveAudio
    ensures f.status.Saved? ==> (f.status.entry.audioPath.Some? <==> s.saveAudio)
    ensures f.status.Saved? && s.saveAudio ==>
              && s.audioPath.Some?
              && f.status.entry.audioPath == Some(PathJoin(s.audioPath.value, AudioFileName(r.user, o.stamp(o.clock(start, r.buffer, FileName)))))
              && f.world.files == w.files[f.status.entry.audioPath.value := r.buffer]
    // the buffer is emptied unless an exception escaped
    ensures f.status != Raised ==> f.rec == Reset(r)
    ensures f.status == Raised ==> f.rec == r && f.world == w
    ensures f.status == Raised <==>
              && r.buffer != [] && o.nonsilent(r.buffer) != []
              && (o.transcribe(r.buffer).Raises?
                  || (o.transcribe(r.buffer).text != [] && s.saveAudio && s.audioPath.None?))
  {
    if r.buffer == [] then Flush(Reset(r), w, EmptyBuffer)
    else if o.nonsilent(r.buffer) == [] then Flush(Reset(r), w, Silent)
    else
      match o.transcribe(r.buffer)
      case Raises => Flush(r, w, Raised)
      case Text(t) =>
        if t == [] then Flush(Reset(r), w, NoText)
        else if !s.saveAudio then
          var e := MakeEntry(r.user, o.clock(start, r.buffer, EntryTime), t, None);
          Flush(Reset(r), w.(store := Push(w.store, r.meetingId, e)), Saved(e))
        else if s.audioPath.None? then
          // os.path.join(None, ...) raises TypeError before anything is written
          Flush(r, w, Raised)
        else
          var path := PathJoin(s.audioPath.value, AudioFileName(r.user, o.stamp(o.clock(start, r.buffer, FileName))));
          var e := MakeEntry(r.user, o.clock(start, r.buffer, EntryTime), t, Some(path));
          Flush(Reset(r), World(Push(w.store, r.meetingId, e), w.files[path := r.buffer]), Saved(e))
  }

  /** The recorder and world after a run of events, and the flushes the
      timer caused, in order. */
  datatype Trace = Trace(rec: VoiceRecorder, world: World, flushes: seq<Status>)

  /** One event's effect: the recorder and world after it, and the flush
      it caused, if any. */
  datatype Stepped = Stepped(rec: VoiceRecorder, world: World, fired: Option<Status>)

  /** A pending timer whose deadline is at or before `e.at` has already
      fired: at its deadline it ran `save_recording` on the buffer as it
      stood (`StepFlushesAtDeadline`).
      Only then does a packet go to `add_packet`, so speech after a pause
      starts a fresh buffer. Any other tick does nothing. */
  function Step(r: VoiceRecorder, w: World, o: Oracles, s: Settings, e: Event): (st: Stepped)
    ensures st.fired.Some? <==> r.timer.Due(e.at)
    ensures st.fired.None? ==> st.world == w
    ensures e.Packet? ==> st.rec.timer == Armed(e.at + QuietPeriod) && st.rec.lastSpoken == e.at
    ensures e.Packet? ==>
              st.rec.buffer == (if st.fired.Some? && st.fired.value != Raised then [] else r.buffer) + e.data
    ensures e.Tick? ==> st.rec.buffer == (if st.fired.Some? && st.fired.value != Raised then [] else r.buffer)
    ensures e.Tick? && st.fired.None? ==> st.rec == r
    ensures e.Tick? && st.fired.Some? ==> st.rec.timer == Idle
    ensures st.rec.user == r.user && st.rec.meetingId == r.meetingId
    ensures st.fired.Some? && st.fired.value.Saved? ==>
              && st.world.store == Push(w.store, r.meetingId, st.fired.value.entry)
              && st.fired.value.entry.user == r.user.name
    ensures !(st.fired.Some? && st.fired.value.Saved?) ==> st.world.store == w.store
  {
    if r.timer.Due(e.at) then
      var f := SaveRecording(r.(timer := Idle), w, o, s, r.timer.deadline);
      Stepped(if e.Packet? then AddPacket(f.rec, e.data, e.at) else f.rec, f.world, Some(f.status))
    else
      Stepped(if e.Packet? then AddPacket(r, e.data, e.at) else r, w, None)
  }

  /** The flush a step causes is `save_recording` started by the timer at
      its deadline on the buffer as it stood before the event; the entry's
      time and the file stamp are the clock's readings during that flush
      (voice_recorder.py:32-33, 78, 86). */
  lemma StepFlushesAtDeadline(r: VoiceRecorder, w: World, o: Oracles, s: Settings, e: Event)
    requires r.timer.Due(e.at)
    ensures var st := Step(r, w, o, s, e);
            var f := SaveRecording(r.(timer := Idle), w, o, s, r.timer.deadline);
            st.fired == Some(f.status) && st.world == f.world
  {
  }

  /** Feed `evs` to the recorder in order. */
  function Run(r: VoiceRecorder, w: World, o: Oracles, s: Settings, evs: seq<Event>): Trace
    decreases |evs|
  {
    if evs == [] then Trace(r, w, [])
    else
      var st := Step(r, w, o, s, evs[0]);
      var rest := Run(st.rec, st.world, o, s, evs[1..]);
      Trace(rest.rec, rest.world, (if st.fired.Some? then [st.fired.value] else []) + rest.flushes)
  }

  /** Every event of `evs`, packet or tick, comes before the quiet period
      after the latest packet has passed (or, before any packet, before `t`
      is due). */
  predicate KeepsTalking(t: Timer, evs: seq<Event>)
    decreases |evs|
  {
    evs == [] ||
    (!t.Due(evs[0].at) &&
     KeepsTalking(if evs[0].Packet? then Armed(evs[0].at + QuietPeriod) else t, evs[1..]))
  }

  /** The bytes of all packets of `evs`, in order. */
  function PacketBytes(evs: seq<Event>): seq<byte>
    decreases |evs|
  {
    if evs == [] then []
    else (if evs[0].Packet? then evs[0].data else []) + PacketBytes(evs[1..])
  }

  /** The entries pushed by a sequence of flushes. */
  function SavedEntries(log: seq<Status>): seq<Entry>
    decreases |log|
  {
    if log == [] then []
    else (if log[0].Saved? then [log[0].entry] else []) + SavedEntries(log[1..])
  }

  /** While packets keep arriving less than the quiet period apart nothing
      is flushed: the world is untouched and the buffer holds every byte
      received, in order (voice_recorder.py:28-33). */
  lemma {:induction false} NoFlushWhileTalking(r: VoiceRecorder, w: World, o: Oracles, s: Settings, evs: seq<Event>)
    requires KeepsTalking(r.timer, evs)
    ensures var tr := Run(r, w, o, s, evs);
            tr.flushes == [] && tr.world == w && tr.rec.buffer == r.buffer + PacketBytes(evs)
    decreases |evs|
  {
    if evs != [] {
      var e := evs[0];
      var st := Step(r, w, o, s, e);
      var rest := Run(st.rec, w, o, s, evs[1..]);
      assert st.fired == None && st.world == w;
      assert Run(r, w, o, s, evs) == Trace(rest.rec, rest.world, [] + rest.flushes);
      assert KeepsTalking(st.rec.timer, evs[1..]);
      NoFlushWhileTalking(st.rec, w, o, s, evs[1..]);
      assert PacketBytes(evs) == (if e.Packet? then e.data else []) + PacketBytes(evs[1..]);
      assert st.rec.buffer == r.buffer + (if e.Packet? then e.data else []);
    }
  }

  /** Speech resumed a quiet period or more after a packet is a separate
      utterance: the timer has flushed the first packet's bytes alone, at
      its deadline, and the new packet starts a fresh buffer unless that
      flush raised (voice_recorder.py:28-33, 58-60). */
  lemma PauseSplitsUtterances(r: VoiceRecorder, w: World, o: Oracles, s: Settings,
                              d1: seq<byte>, t1: int, d2: seq<byte>, t2: int)
    requires r.buffer == [] && r.timer == Idle
    requires t1 + QuietPeriod <= t2
    ensures var tr := Run(r, w, o, s, [Packet(d1, t1), Packet(d2, t2)]);
            && |tr.flushes| == 1
            && tr.flushes[0] == SaveRecording(r.(buffer := d1, lastSpoken := t1), w, o, s, t1 + QuietPeriod).status
            && (tr.flushes[0] != Raised ==> tr.rec.buffer == d2)
            && tr.rec.timer == Armed(t2 + QuietPeriod)
  {
    var evs := [Packet(d1, t1), Packet(d2, t2)];
    var st1 := Step(r, w, o, s, evs[0]);
    assert st1.rec == r.(buffer := d1, lastSpoken := t1, timer := Armed(t1 + QuietPeriod));
    var st2 := Step(st1.rec, st1.world, o, s, evs[1]);
    assert st1.rec.(timer := Idle) == r.(buffer := d1, lastSpoken := t1);
    assert evs[1..][1..] == [];
    var last := Run(st2.rec, st2.world, o, s, evs[1..][1..]);
    assert last == Trace(st2.rec, st2.world, []);
    assert Run(st1.rec, st1.world, o, s, evs[1..]) == Trace(st2.rec, st2.world, [st2.fired.value]);
    assert Run(r, w, o, s, evs) == Trace(st2.rec, st2.world, [] + [st2.fired.value]);
  }

  /** Some tick of `ts` reaches `deadline`. */
  predicate Reaches(ts: seq<int>, deadline: int) {
    exists i :: 0 <= i < |ts| && deadline <= ts[i]
  }

  /** The events "time `ts[i]` is reached", in order. */
  function Ticks(ts: seq<int>): (evs: seq<Event>)
    ensures |evs| == |ts|
    ensures forall i :: 0 <= i < |ts| ==> evs[i] == Tick(ts[i])
  {
    seq(|ts|, i requires 0 <= i < |ts| => Tick(ts[i]))
  }

  /** Once no packet arrives any more, the timer flushes exactly once when
      the quiet period has passed, and never before: a trailing-edge
      debounce (voice_recorder.py:28-33). */
  lemma {:induction false} QuietFlushesOnce(r: VoiceRecorder, w: World, o: Oracles, s: Settings, ts: seq<int>)
    requires r.timer.Armed?
    ensures |Run(r, w, o, s, Ticks(ts)).flushes| == if Reaches(ts, r.timer.deadline) then 1 else 0
    decreases |ts|
  {
    if ts != [] {
      var evs := Ticks(ts);
      assert evs[1..] == Ticks(ts[1..]);
      var st := Step(r, w, o, s, evs[0]);
      if r.timer.Due(ts[0]) {
        IdleNeverFlushes(st.rec, st.world, o, s, ts[1..]);
        assert Reaches(ts, r.timer.deadline);
      } else {
        QuietFlushesOnce(r, w, o, s, ts[1..]);
        assert Reaches(ts, r.timer.deadline) <==> Reaches(ts[1..], r.timer.deadline) by {
          if Reaches(ts, r.timer.deadline) {
            var i :| 0 <= i < |ts| && r.timer.deadline <= ts[i];
            assert i != 0;
            assert r.timer.deadline <= ts[1..][i - 1];
          }
          if Reaches(ts[1..], r.timer.deadline) {
            var i :| 0 <= i < |ts[1..]| && r.timer.deadline <= ts[1..][i];
            assert r.timer.deadline <= ts[i + 1];
          }
        }
      }
    }
  }

  /** With no timer pending, time passing flushes nothing. */
  lemma {:induction false} IdleNeverFlushes(r: VoiceRecorder, w: World, o: Oracles, s: Settings, ts: seq<int>)
    requires r.timer == Idle
    ensures Run(r, w, o, s, Ticks(ts)).flushes == []
    decreases |ts|
  {
    if ts != [] {
      assert Ticks(ts)[1..] == Ticks(ts[1..]);
      IdleNeverFlushes(r, w, o, s, ts[1..]);
    }
  }

  /** The entries saved by an optional first flush and then by `log`. */
  lemma SavedAfter(fired: Option<Status>, log: seq<Status>)
    ensures SavedEntries((if fired.Some? then [fired.value] else []) + log)
            == SavedBy(fired) + SavedEntries(log)
  {
    if fired.Some? {
      assert ([fired.value] + log)[1..] == log;
    } else {
      assert [] + log == log;
    }
  }

  /** The entry an optional flush pushed, if any. */
  function SavedBy(fired: Option<Status>): seq<Entry> {
    if fired.Some? && fired.value.Saved? then [fired.value.entry] else []
  }

  /** One step adds to this recorder's meeting exactly the entry its flush
      saved, attributed to its speaker, and leaves other meetings alone. */
  lemma StepTranscript(r: VoiceRecorder, w: World, o: Oracles, s: Settings, e: Event)
    requires r.meetingId in w.store
    ensures var st := Step(r, w, o, s, e);
            && st.world.store.Keys == w.store.Keys
            && Transcript(st.world.store[r.meetingId]) == Transcript(w.store[r.meetingId]) + SavedBy(st.fired)
            && (forall k :: k in w.store && k != r.meetingId ==> st.world.store[k] == w.store[k])
            && (forall x :: x in SavedBy(st.fired) ==> x.user == r.user.name)
  {
  }

  /** Over any run, this recorder's meeting gains exactly the entries its
      flushes saved, in order, all attributed to its speaker; every other
      meeting is unchanged (voice_recorder.py:56, 84-100). */
  lemma {:induction false} TranscriptGrowsByFlushes(r: VoiceRecorder, w: World, o: Oracles, s: Settings, evs: seq<Event>)
    requires r.meetingId in w.store
    ensures var tr := Run(r, w, o, s, evs);
            && tr.world.store.Keys == w.store.Keys
            && Transcript(tr.world.store[r.meetingId])
               == Transcript(w.store[r.meetingId]) + SavedEntries(tr.flushes)
            && (forall k :: k in w.store && k != r.meetingId ==> tr.world.store[k] == w.store[k])
            && (forall e :: e in SavedEntries(tr.flushes) ==> e.user == r.user.name)
    decreases |evs|
  {
    if evs != [] {
      var st := Step(r, w, o, s, evs[0]);
      var rest := Run(st.rec, st.world, o, s, evs[1..]);
      var head := if st.fired.Some? then [st.fired.value] else [];
      assert Run(r, w, o, s, evs) == Trace(rest.rec, rest.world, head + rest.flushes);
      StepTranscript(r, w, o, s, evs[0]);
      TranscriptGrowsByFlushes(st.rec, st.world, o, s, evs[1..]);
      SavedAfter(st.fired, rest.flushes);
      assert Transcript(w.store[r.meetingId]) + SavedBy(st.fired) + SavedEntries(rest.flushes)
          == Transcript(w.store[r.meetingId]) + (SavedBy(st.fired) + SavedEntries(rest.flushes));
    }
  }
}

=== FILE: sanitizer.dfy ===
/** `MongoDBHandler.sanitize_data` (mongo_handler.py): a recursive rewrite
    of a JSON-like update document that keeps the four permitted update
    operators and renames every other `$`-key so that it cannot act as one. */
module Sanitizer {

  import opened Wrappers
  import opened Seqs

  /** A leaf value of a document: a string, number, boolean, null or
      timestamp, each of which `sanitize_data` returns as it is. */
  datatype Atom = Str(s: string) | Num(n: int) | Bool(b: bool) | Null | Time(t: int)

  /** A JSON-like value. A Python dict is an insertion-ordered sequence of
      key/value pairs; `WellFormed` adds that its keys are distinct. */
  datatype Json =
    | Dict(entries: seq<(string, Json)>)
    | List(items: seq<Json>)
    | Scalar(atom: Atom)

  /** The update operators the sanitiser lets through (mongo_handler.py:26). */
  const Operators: set<string> := {"$set", "$push", "$inc", "$pull"}

  /** The keys of a dict, in order. */
  function Keys(es: seq<(string, Json)>): (ks: seq<string>)
    ensures |ks| == |es|
    ensures forall i :: 0 <= i < |es| ==> ks[i] == es[i].0
  {
    seq(|es|, i requires 0 <= i < |es| => es[i].0)
  }

  /** Every key of the dict is distinct, as in a Python dict. */
  predicate DistinctKeys(es: seq<(string, Json)>) {
    forall i, j :: 0 <= i < j < |es| ==> es[i].0 != es[j].0
  }

  /** Every dict, at every depth, has distinct keys. */
  predicate WellFormed(j: Json) {
    match j
    case Dict(es) => DistinctKeys(es) && forall i :: 0 <= i < |es| ==> WellFormed(es[i].1)
    case List(xs) => forall i :: 0 <= i < |xs| ==> WellFormed(xs[i])
    case Scalar(_) => true
  }

  /** Every `$`-key, at every depth, is one of the permitted operators. */
  predicate Clean(j: Json) {
    match j
    case Dict(es) =>
      forall i :: 0 <= i < |es| ==>
        (es[i].0 != [] && es[i].0[0] == '$' ==> es[i].0 in Operators) && Clean(es[i].1)
    case List(xs) => forall i :: 0 <= i < |xs| ==> Clean(xs[i])
    case Scalar(_) => true
  }

  /** The key a dict entry is stored under after sanitising
      (mongo_handler.py:26-33). */
  function RenameKey(k: string): (r: string)
    ensures k in Operators ==> r == k
    ensures (k == [] || k[0] != '$') ==> r == k
    ensures k != [] && k[0] == '$' && k !in Operators ==> r == "_" + k[1..]
    ensures r != [] && r[0] == '$' ==> r in Operators
  {
    if k != [] && k[0] == '$' && k in Operators then k
    else if k != [] && k[0] == '$' then "_" + k[1..]
    else k
  }

  /** Where key `k` sits in the dict. */
  function KeyIndex(es: seq<(string, Json)>, k: string): (i: nat)
    requires k in Keys(es)
    ensures i < |es| && es[i].0 == k
    ensures forall j :: 0 <= j < i ==> es[j].0 != k
  {
    if es[0].0 == k then 0
    else
      assert Keys(es)[1..] == Keys(es[1..]);
      KeyIndex(es[1..], k) + 1
  }

  /** Python's `d[k] = v`: an existing key keeps its place and takes the
      new value; a new key goes to the end. */
  function Put(es: seq<(string, Json)>, k: string, v: Json): (r: seq<(string, Json)>)
    requires DistinctKeys(es)
    ensures Keys(r) == if k in Keys(es) then Keys(es) else Keys(es) + [k]
    ensures DistinctKeys(r)
    ensures k !in Keys(es) ==> r == es + [(k, v)]
  {
    if k in Keys(es) then es[KeyIndex(es, k) := (k, v)]
    else
      assert forall j :: 0 <= j < |es| ==> Keys(es)[j] != k;
      es + [(k, v)]
  }

  /** In a dict with distinct keys, each entry is what its key looks up. */
  lemma {:induction false} LookupAt(es: seq<(string, Json)>, i: int)
    requires DistinctKeys(es) && 0 <= i < |es|
    ensures Lookup(es, es[i].0) == Some(es[i].1)
  {
    if i > 0 {
      assert es[1..][i - 1] == es[i];
      LookupAt(es[1..], i - 1);
    }
  }

  /** A key the dict does not hold looks up nothing. */
  lemma {:induction false} LookupAbsent(es: seq<(string, Json)>, k: string)
    requires k !in Keys(es)
    ensures Lookup(es, k) == None
  {
    if es != [] {
      assert Keys(es)[0] == es[0].0;
      assert Keys(es)[1..] == Keys(es[1..]);
      LookupAbsent(es[1..], k);
    }
  }

  /** After `d[k] = v`, `k` holds `v` and every other key what it held. */
  lemma PutLookup(es: seq<(string, Json)>, k: string, v: Json, k': string)
    requires DistinctKeys(es)
    ensures Lookup(Put(es, k, v), k') == if k' == k then Some(v) else Lookup(es, k')
  {
    var r := Put(es, k, v);
    var i := if k in Keys(es) then KeyIndex(es, k) else |es|;
    assert r[i] == (k, v);
    if k' == k {
      LookupAt(r, i);
    } else if k' in Keys(es) {
      var j :| 0 <= j < |es| && Keys(es)[j] == k';
      assert r[j] == es[j];
      LookupAt(r, j);
      LookupAt(es, j);
    } else {
      LookupAbsent(es, k');
      LookupAbsent(r, k');
    }
  }

  /** `d[k] = v` adds no pair other than `(k, v)`. */
  lemma PutElements(es: seq<(string, Json)>, k: string, v: Json)
    requires DistinctKeys(es)
    ensures forall p :: p in Put(es, k, v) ==> p in es || p == (k, v)
  {
    var r := Put(es, k, v);
    forall p | p in r ensures p in es || p == (k, v) {
      var j :| 0 <= j < |r| && r[j] == p;
      if j < |es| && r[j] != (k, v) {
        assert r[j] == es[j];
      }
    }
  }

  /** The value stored under `k`, if any: `d.get(k)`. */
  function Lookup(es: seq<(string, Json)>, k: string): Option<Json> {
    if es == [] then None
    else if es[0].0 == k then Some(es[0].1)
    else Lookup(es[1..], k)
  }

  /** The value of the last pair with key `k`: the one a sequence of
      assignments `d[k] = v` leaves behind. */
  function LastBinding(ps: seq<(string, Json)>, k: string): Option<Json> {
    if ps == [] then None
    else if ps[|ps| - 1].0 == k then Some(ps[|ps| - 1].1)
    else LastBinding(ps[..|ps| - 1], k)
  }

  /** The keys in order of first appearance, each once. */
  function FirstOccurrences(ks: seq<string>): seq<string> {
    if ks == [] then []
    else
      var d := FirstOccurrences(ks[..|ks| - 1]);
      if ks[|ks| - 1] in d then d else d + [ks[|ks| - 1]]
  }

  /** The dict that `for k, v in ps: d[k] = v` builds from an empty `d`:
      keys in order of first assignment, each holding its last value. */
  function FromPairs(ps: seq<(string, Json)>): (r: seq<(string, Json)>)
    ensures DistinctKeys(r)
    ensures |r| <= |ps|
    ensures Keys(r) == FirstOccurrences(Keys(ps))
    ensures forall k :: Lookup(r, k) == LastBinding(ps, k)
    ensures forall p :: p in r ==> p in ps
  {
    if ps == [] then []
    else
      var init, last := ps[..|ps| - 1], ps[|ps| - 1];
      var d := FromPairs(init);
      assert Keys(ps)[..|ps| - 1] == Keys(init);
      PutElements(d, last.0, last.1);
      forall k ensures Lookup(Put(d, last.0, last.1), k) == LastBinding(ps, k) {
        PutLookup(d, last.0, last.1, k);
      }
      Put(d, last.0, last.1)
  }

  /** The entries of a dict with every key renamed and every value
      sanitised, before they are collected into the result dict. */
  function Renamed(es: seq<(string, Json)>): (ps: seq<(string, Json)>)
    ensures |ps| == |es|
    ensures forall i :: 0 <= i < |es| ==> ps[i] == (RenameKey(es[i].0), Sanitize(es[i].1))
    ensures forall p :: p in ps ==> SafePair(p)
    decreases Dict(es), 0
  {
    seq(|es|, i requires 0 <= i < |es| => (RenameKey(es[i].0), Sanitize(es[i].1)))
  }

  /** A dict entry that may appear in sanitised output. */
  predicate SafePair(p: (string, Json)) {
    (p.0 != [] && p.0[0] == '$' ==> p.0 in Operators) && Clean(p.1) && WellFormed(p.1)
  }

  /** `sanitize_data` (mongo_handler.py:21-38). */
  function Sanitize(j: Json): (r: Json)
    ensures Clean(r) && WellFormed(r)
    ensures j.Dict? <==> r.Dict?
    ensures j.Dict? ==> |r.entries| <= |j.entries|
    ensures j.List? ==> r.List? && |r.items| == |j.items|
    ensures j.List? ==> forall i :: 0 <= i < |j.items| ==> r.items[i] == Sanitize(j.items[i])
    ensures j.Scalar? ==> r == j
    decreases j, 1
  {
    match j
    case Dict(es) =>
      var d := FromPairs(Renamed(es));
      assert forall i :: 0 <= i < |d| ==> SafePair(d[i]) by {
        forall i | 0 <= i < |d| ensures SafePair(d[i]) {
          assert d[i] in d;
        }
      }
      Dict(d)
    case List(xs) =>
      var ys := seq(|xs|, i requires 0 <= i < |xs| => Sanitize(xs[i]));
      assert forall i :: 0 <= i < |ys| ==> Clean(ys[i]) && WellFormed(ys[i]);
      List(ys)
    case Scalar(_) => j
  }

  /** Collecting pairs whose keys are already distinct gives them back unchanged. */
  lemma {:induction false} FromPairsDistinct(ps: seq<(string, Json)>)
    requires DistinctKeys(ps)
    ensures FromPairs(ps) == ps
  {
    if ps != [] {
      var init, last := ps[..|ps| - 1], ps[|ps| - 1];
      assert DistinctKeys(init) by {
        forall i, j | 0 <= i < j < |init| ensures init[i].0 != init[j].0 {
          assert init[i] == ps[i] && init[j] == ps[j];
        }
      }
      FromPairsDistinct(init);
      assert last.0 !in Keys(init) by {
        forall i | 0 <= i < |init| ensures Keys(init)[i] != last.0 {
          assert init[i] == ps[i];
        }
      }
      assert FromPairs(ps) == Put(FromPairs(init), last.0, last.1);
      var r := Put(init, last.0, last.1);
      assert r == init + [(last.0, last.1)];
      assert (last.0, last.1) == last;
      DropLast(ps);
    }
  }

  /** A document that is already clean and well formed is its own
      sanitised form. */
  lemma {:induction false} SanitizeCleanIsIdentity(j: Json)
    requires Clean(j) && WellFormed(j)
    ensures Sanitize(j) == j
    decreases j
  {
    match j
    case Dict(es) =>
      forall i | 0 <= i < |es|
        ensures Sanitize(es[i].1) == es[i].1
      {
        SanitizeCleanIsIdentity(es[i].1);
      }
      assert Renamed(es) == es;
      FromPairsDistinct(es);
    case List(xs) =>
      forall i | 0 <= i < |xs|
        ensures Sanitize(xs[i]) == xs[i]
      {
        SanitizeCleanIsIdentity(xs[i]);
      }
      assert Sanitize(j).items == xs;
    case Scalar(_) =>
  }

  /** Sanitising twice is the same as sanitising once
      (mongo_handler.py:21-38): renamed keys start with `_`, so a second
      pass renames nothing. */
  lemma {:induction false} SanitizeIdempotent(j: Json)
    ensures Sanitize(Sanitize(j)) == Sanitize(j)
  {
    SanitizeCleanIsIdentity(Sanitize(j));
  }

  /** The last pair with key `k` decides what a run of assignments leaves
      under `k`. */
  lemma {:induction false} LastBindingAt(ps: seq<(string, Json)>, i: int)
    requires 0 <= i < |ps|
    requires forall j :: i < j < |ps| ==> ps[j].0 != ps[i].0
    ensures LastBinding(ps, ps[i].0) == Some(ps[i].1)
  {
    if i < |ps| - 1 {
      LastBindingAt(ps[..|ps| - 1], i);
    }
  }

  /** A key no pair carries is absent afterwards. */
  lemma {:induction false} LastBindingAbsent(ps: seq<(string, Json)>, k: string)
    requires forall j :: 0 <= j < |ps| ==> ps[j].0 != k
    ensures LastBinding(ps, k) == None
  {
    if ps != [] {
      LastBindingAbsent(ps[..|ps| - 1], k);
    }
  }

  /** Each entry of a dict is found in the sanitised dict under its renamed
      key, holding its sanitised value, unless a later entry is renamed to
      the same key (mongo_handler.py:24-34). */
  lemma {:induction false} EntryLands(es: seq<(string, Json)>, i: int)
    requires 0 <= i < |es|
    requires forall j :: i < j < |es| ==> RenameKey(es[j].0) != RenameKey(es[i].0)
    ensures Lookup(Sanitize(Dict(es)).entries, RenameKey(es[i].0)) == Some(Sanitize(es[i].1))
  {
    LastBindingAt(Renamed(es), i);
  }

  /** The four operators are kept verbatim and their values sanitised
      (mongo_handler.py:26-28). */
  lemma {:induction false} OperatorKept(es: seq<(string, Json)>, i: int)
    requires DistinctKeys(es)
    requires 0 <= i < |es| && es[i].0 in Operators
    ensures Lookup(Sanitize(Dict(es)).entries, es[i].0) == Some(Sanitize(es[i].1))
  {
    forall j | i < j < |es|
      ensures RenameKey(es[j].0) != RenameKey(es[i].0)
    {
      assert es[j].0 != es[i].0;
    }
    EntryLands(es, i);
  }

  /** Any other `$k` key is stored as `_k` with its value sanitised, when no
      later entry already uses `_k`, and `$k` itself disappears
      (mongo_handler.py:29-31). */
  lemma {:induction false} DollarKeyRenamed(es: seq<(string, Json)>, i: int, k: string)
    requires DistinctKeys(es)
    requires 0 <= i < |es| && es[i].0 == "$" + k && es[i].0 !in Operators
    requires forall j :: i < j < |es| ==> es[j].0 != "_" + k
    ensures Lookup(Sanitize(Dict(es)).entries, "_" + k) == Some(Sanitize(es[i].1))
    ensures Lookup(Sanitize(Dict(es)).entries, "$" + k) == None
  {
    assert es[i].0[1..] == k;
    forall j | i < j < |es|
      ensures RenameKey(es[j].0) != RenameKey(es[i].0)
    {
      assert es[j].0 != es[i].0;
      var kj := es[j].0;
      if kj != [] && kj[0] == '$' && kj !in Operators {
        assert kj == [kj[0]] + kj[1..];
        assert ("_" + k)[1..] == k;
      }
    }
    EntryLands(es, i);
    LastBindingAbsent(Renamed(es), "$" + k);
  }

  /** Assigning the same key twice keeps one entry with the second value. */
  lemma SameKeyTwice(p: (string, Json), q: (string, Json))
    requires p.0 == q.0
    ensures FromPairs([p, q]) == [q]
  {
    assert [p, q][..1] == [p];
    assert FromPairs([p]) == Put([], p.0, p.1) == [p];
    assert Put([p], q.0, q.1) == [q];
  }

  /** Two keys that share a sanitised name collapse into one entry holding
      the later value. */
  lemma SharedNameLaterWins(k1: string, v1: Json, k2: string, v2: Json)
    requires RenameKey(k1) == RenameKey(k2)
    ensures Sanitize(Dict([(k1, v1), (k2, v2)])) == Dict([(RenameKey(k2), Sanitize(v2))])
  {
    var p, q := (RenameKey(k1), Sanitize(v1)), (RenameKey(k2), Sanitize(v2));
    RenamedTwo(k1, v1, k2, v2);
    SameKeyTwice(p, q);
    assert Sanitize(Dict([(k1, v1), (k2, v2)])) == Dict(FromPairs(Renamed([(k1, v1), (k2, v2)])));
  }

  /** The renamed entries of a two-entry dict, spelled out. */
  lemma RenamedTwo(k1: string, v1: Json, k2: string, v2: Json)
    ensures Renamed([(k1, v1), (k2, v2)]) == [(RenameKey(k1), Sanitize(v1)), (RenameKey(k2), Sanitize(v2))]
  {
    var es := [(k1, v1), (k2, v2)];
    var r := Renamed(es);
    assert r[0] == (RenameKey(k1), Sanitize(v1));
    assert r[1] == (RenameKey(k2), Sanitize(v2));
    TwoElements(r, (RenameKey(k1), Sanitize(v1)), (RenameKey(k2), Sanitize(v2)));
  }

  /** "$a" and "_a" land on the same key and whichever comes later wins, so
      the result has fewer keys than the input (mongo_handler.py:24-33). */
  lemma {:induction false} CollisionLaterWins(x: Json, y: Json)
    ensures Sanitize(Dict([("$a", x), ("_a", y)])) == Dict([("_a", Sanitize(y))])
    ensures Sanitize(Dict([("_a", y), ("$a", x)])) == Dict([("_a", Sanitize(x))])
  {
    assert "$a" !in Operators;
    assert "$a"[1..] == "a";
    assert RenameKey("$a") == "_a" && RenameKey("_a") == "_a";
    SharedNameLaterWins("$a", x, "_a", y);
    SharedNameLaterWins("_a", y, "$a", x);
  }
}

=== FILE: seqs.dfy ===
/** Small facts about sequences, proved once in a context free of the
    model's own definitions. */
module Seqs {

  /** A non-empty sequence is its front followed by its last element. */
  lemma DropLast<T>(s: seq<T>)
    requires s != []
    ensures s[..|s| - 1] + [s[|s| - 1]] == s
  {
  }

  /** A sequence of two elements is the display of those two. */
  lemma TwoElements<T>(s: seq<T>, a: T, b: T)
    requires |s| == 2 && s[0] == a && s[1] == b
    ensures s == [a, b]
  {
  }

  /** Equal sequences sharing a prefix agree after it. */
  lemma CancelPrefix<T>(a: seq<T>, b: seq<T>, c: seq<T>)
    requires a + b == a + c
    ensures b == c
  {
    assert b == (a + b)[|a|..];
    assert c == (a + c)[|a|..];
  }

  /** Equal sequences sharing a suffix agree before it. */
  lemma CancelSuffix<T>(b: seq<T>, c: seq<T>, z: seq<T>)
    requires b + z == c + z
    ensures b == c
  {
    assert b == (b + z)[..|b|];
    assert c == (c + z)[..|c|];
  }

  /** Concatenation regrouped to the right. */
  lemma Regroup<T>(a: seq<T>, b: seq<T>, c: seq<T>, d: seq<T>)
    ensures a + b + c + d == a + (b + (c + d))
  {
  }

  /** A slice of a slice is a slice of the original. */
  lemma SubSlice<T>(s: seq<T>, i: int, j: int, a: int, b: int)
    requires 0 <= i <= j <= |s| && 0 <= a <= b <= j - i
    ensures s[i..j][a..b] == s[i + a..i + b]
  {
    forall k | 0 <= k < b - a
      ensures s[i..j][a..b][k] == s[i + a..i + b][k]
    {
      assert s[i..j][a..b][k] == s[i..j][a + k] == s[i + a + k];
    }
  }

  /** A non-empty sequence is its first element in front of the rest. */
  lemma ConsBack<T>(a: seq<T>, z: seq<T>)
    requires a != []
    ensures [a[0]] + (a[1..] + z) == a + z
  {
    assert [a[0]] + a[1..] == a;
  }
}

=== FILE: store.dfy ===
/** The `meetings` collection, seen through the two updates the core issues:
    `$push` of a transcript entry (voice_recorder.py:96-100) and `$set` of
    the summary and title (meeting_reader.py:93-97, 106-110). Documents are
    keyed by `meeting_id`; the fields the core neither reads nor writes are
    not modelled. */
module MeetingStore {

  import opened Wrappers

  /** One element of a meeting's `transcriptions` array
      (voice_recorder.py:87-93). */
  datatype Entry = Entry(user: string, timestamp: int, transcription: string, audioPath: Option<string>)

  /** A meeting document. A field that was never written is `None`. */
  datatype Meeting = Meeting(transcriptions: Option<seq<Entry>>, title: Option<string>, summary: Option<string>)

  /** The collection, keyed by `meeting_id`. */
  type Store = map<string, Meeting>

  /** The transcript of a meeting, with a missing field read as empty. */
  function Transcript(m: Meeting): (ts: seq<Entry>)
    ensures m.transcriptions.None? ==> ts == []
    ensures m.transcriptions.Some? ==> ts == m.transcriptions.value
  {
    if m.transcriptions.Some? then m.transcriptions.value else []
  }

  /** `update_one({"meeting_id": id}, {"$push": {"transcriptions": e}})`:
      the matching document gets `e` at the end of its array (created if
      missing); no match updates nothing. */
  function Push(db: Store, id: string, e: Entry): (r: Store)
    ensures r.Keys == db.Keys
    ensures forall k :: k in db && k != id ==> r[k] == db[k]
    ensures id in db ==> Transcript(r[id]) == Transcript(db[id]) + [e]
    ensures id in db ==> r[id].title == db[id].title && r[id].summary == db[id].summary
    ensures id !in db ==> r == db
  {
    if id in db then db[id := db[id].(transcriptions := Some(Transcript(db[id]) + [e]))]
    else db
  }

  /** `update_one({"meeting_id": id}, {"$set": ...})` writing the summary and,
      when `title` is present, the meeting title. */
  function SetSummary(db: Store, id: string, title: Option<string>, summary: string): (r: Store)
    ensures r.Keys == db.Keys
    ensures forall k :: k in db && k != id ==> r[k] == db[k]
    ensures id in db ==> r[id].summary == Some(summary)
    ensures id in db ==> r[id].title == if title.Some? then title else db[id].title
    ensures id in db ==> r[id].transcriptions == db[id].transcriptions
    ensures id !in db ==> r == db
  {
    if id !in db then db
    else if title.Some? then db[id := db[id].(title := title, summary := Some(summary))]
    else db[id := db[id].(summary := Some(summary))]
  }
}

=== FILE: text.dfy ===
/** The handful of Python `str` operations the meeting logic relies on:
    `strip`, `replace`, `split`, `lower` and the `in` substring test,
    each written out over `seq<char>`. */
module Text {

  import opened Seqs

  /** Python's `str.isspace` for one character: the characters `strip()`
      removes when called without arguments. */
  predicate IsSpace(c: char) {
    || c == ' '
    || ('\t' <= c <= '\r')
    || ('\U{1c}' <= c <= '\U{1f}')
    || c == '\U{85}' || c == '\U{a0}' || c == '\U{1680}'
    || ('\U{2000}' <= c <= '\U{200a}')
    || c == '\U{2028}' || c == '\U{2029}' || c == '\U{202f}'
    || c == '\U{205f}' || c == '\U{3000}'
  }

  /** Neither end of `s` is whitespace. */
  predicate IsStripped(s: string) {
    s == [] || (!IsSpace(s[0]) && !IsSpace(s[|s| - 1]))
  }

  /** The end of the whitespace run of `s` that starts at `i`. */
  function SpaceRunEnd(s: string, i: nat): (j: nat)
    requires i <= |s|
    ensures i <= j <= |s|
    ensures forall k :: i <= k < j ==> IsSpace(s[k])
    ensures j == |s| || !IsSpace(s[j])
    decreases |s| - i
  {
    if i < |s| && IsSpace(s[i]) then SpaceRunEnd(s, i + 1) else i
  }

  /** The start of the whitespace run of `s` that ends at `j`, going no
      further back than `lo`. */
  function SpaceRunStart(s: string, lo: nat, j: nat): (i: nat)
    requires lo <= j <= |s|
    ensures lo <= i <= j
    ensures forall k :: i <= k < j ==> IsSpace(s[k])
    ensures i == lo || !IsSpace(s[i - 1])
    decreases j
  {
    if lo < j && IsSpace(s[j - 1]) then SpaceRunStart(s, lo, j - 1) else j
  }

  /** `s.strip()`: a contiguous piece of `s`, with whitespace on both
      ends removed and nothing but whitespace removed. */
  function Strip(s: string): (r: string)
    ensures IsStripped(r)
    ensures exists a :: TrimmedAt(s, r, a)
  {
    var lo := SpaceRunEnd(s, 0);
    var hi := SpaceRunStart(s, lo, |s|);
    assert TrimmedAt(s, s[lo..hi], lo);
    s[lo..hi]
  }

  /** `r` is the piece of `s` starting at `a`, and everything of `s`
      around it is whitespace. */
  predicate TrimmedAt(s: string, r: string, a: int) {
    && 0 <= a && a + |r| <= |s| && r == s[a..a + |r|]
    && (forall i :: 0 <= i < a ==> IsSpace(s[i]))
    && (forall i :: a + |r| <= i < |s| ==> IsSpace(s[i]))
  }

  /** Stripping adds no character. */
  lemma StripKeepsOut(s: string, c: char)
    requires c !in s
    ensures c !in Strip(s)
  {
    var r := Strip(s);
    var a :| TrimmedAt(s, r, a);
  }

  /** Stripping a string that is already stripped changes nothing. */
  lemma StripStripped(s: string)
    requires IsStripped(s)
    ensures Strip(s) == s
  {
    assert s[0..|s|] == s;
  }

  /** `p in s`, read left to right. */
  predicate Contains(s: string, p: string) {
    p <= s || (s != [] && Contains(s[1..], p))
  }

  /** `p` occurs in `s` starting at index `i`. */
  predicate OccursAt(s: string, p: string, i: int) {
    0 <= i <= |s| - |p| && s[i..i + |p|] == p
  }

  /** The recursive reading of `p in s` is the usual "occurs at some index". */
  lemma {:induction false} ContainsAt(s: string, p: string)
    ensures Contains(s, p) <==> exists i :: OccursAt(s, p, i)
    decreases |s|
  {
    if p <= s {
      assert s[0..|p|] == p;
      assert OccursAt(s, p, 0);
    } else if s != [] {
      ContainsAt(s[1..], p);
      if exists i :: OccursAt(s, p, i) {
        var i :| OccursAt(s, p, i);
        assert i != 0;
        OccursShift(s, p, i - 1);
      }
      if Contains(s[1..], p) {
        var j :| OccursAt(s[1..], p, j);
        OccursShift(s, p, j);
      }
    }
  }

  /** Occurrences in `s[1..]` are those in `s`, one place later. */
  lemma OccursShift(s: string, p: string, i: nat)
    requires s != []
    ensures OccursAt(s[1..], p, i) <==> OccursAt(s, p, i + 1)
  {
    if i + |p| <= |s| - 1 {
      assert s[1..][i..i + |p|] == s[i + 1..i + 1 + |p|];
    }
  }

  /** `s.replace(p, rep)` for a non-empty `p`: occurrences are found from
      the left and do not overlap. */
  function ReplaceAll(s: string, p: string, rep: string): (r: string)
    requires p != []
    ensures !Contains(s, p) ==> r == s
    ensures rep == [] ==> |r| <= |s|
    ensures rep == [] && Contains(s, p) ==> |r| < |s|
    ensures forall c :: c in r ==> c in s || c in rep
    decreases |s|
  {
    if s == [] then []
    else if p <= s then rep + ReplaceAll(s[|p|..], p, rep)
    else [s[0]] + ReplaceAll(s[1..], p, rep)
  }

  /** An occurrence of `p` is replaced, the text before it kept, and the
      scan resumes after it, provided no occurrence can start earlier: the
      pattern's first character does not occur before it. */
  lemma {:induction false} ReplaceFirst(a: string, p: string, b: string, rep: string)
    requires p != [] && p[0] !in a
    ensures ReplaceAll(a + p + b, p, rep) == a + (rep + ReplaceAll(b, p, rep))
    decreases |a|
  {
    if a == [] {
      assert a + p + b == p + b;
      ReplaceAtFront(p, b, rep);
    } else {
      var s := a + p + b;
      assert s[0] == a[0] && s[1..] == a[1..] + p + b;
      ReplaceFirst(a[1..], p, b, rep);
      ReplacePastFront(s, p, rep);
      ConsBack(a, rep + ReplaceAll(b, p, rep));
    }
  }

  /** An occurrence at the front is replaced, and the scan resumes after it. */
  lemma ReplaceAtFront(p: string, b: string, rep: string)
    requires p != []
    ensures ReplaceAll(p + b, p, rep) == rep + ReplaceAll(b, p, rep)
  {
    assert (p + b)[|p|..] == b;
  }

  /** Without the pattern's first character at the front, that character is kept. */
  lemma ReplacePastFront(s: string, p: string, rep: string)
    requires p != [] && s != [] && s[0] != p[0]
    ensures ReplaceAll(s, p, rep) == [s[0]] + ReplaceAll(s[1..], p, rep)
  {
  }

  /** A leading occurrence of the pattern is removed by `replace(p, "")`. */
  lemma RemoveLeading(p: string, s: string)
    requires p != []
    ensures ReplaceAll(p + s, p, []) == ReplaceAll(s, p, [])
  {
    assert (p + s)[|p|..] == s;
  }

  /** A prefix none of whose characters starts `p` adds no occurrence of `p`. */
  lemma {:induction false} NotInPrefix(a: string, t: string, p: string)
    requires p != [] && p[0] !in a
    requires !Contains(t, p)
    ensures !Contains(a + t, p)
    decreases |a|
  {
    if a == [] {
      assert a + t == t;
    } else {
      assert (a + t)[0] == a[0] && (a + t)[1..] == a[1..] + t;
      NotInPrefix(a[1..], t, p);
    }
  }

  /** One leading blank in front of a stripped string is stripped off. */
  lemma StripLeadingSpace(t: string)
    requires t != [] && IsStripped(t)
    ensures Strip(" " + t) == t
  {
    var s := " " + t;
    assert SpaceRunEnd(s, 1) == 1;
    assert SpaceRunEnd(s, 0) == 1;
    assert SpaceRunStart(s, 1, |s|) == |s|;
    assert s[1..|s|] == t;
  }

  /** `s.split(sep)` for a one-character separator. */
  function Split(s: string, sep: char): (r: seq<string>)
    ensures |r| >= 1
    ensures forall i :: 0 <= i < |r| ==> sep !in r[i]
    ensures |r[0]| <= |s| && r[0] == s[..|r[0]|]
    ensures |r[0]| < |s| ==> s[|r[0]|] == sep
    decreases |s|
  {
    if s == [] then [[]]
    else
      var rest := Split(s[1..], sep);
      if s[0] == sep then [[]] + rest
      else [[s[0]] + rest[0]] + rest[1..]
  }

  /** `sep.join(parts)`. */
  function Join(parts: seq<string>, sep: char): string
    decreases |parts|
  {
    if |parts| == 0 then []
    else if |parts| == 1 then parts[0]
    else parts[0] + [sep] + Join(parts[1..], sep)
  }

  /** Splitting loses nothing: joining the pieces gives the string back. */
  lemma {:induction false} JoinSplit(s: string, sep: char)
    ensures Join(Split(s, sep), sep) == s
    decreases |s|
  {
    if s != [] {
      var rest := Split(s[1..], sep);
      JoinSplit(s[1..], sep);
      if s[0] == sep {
        assert Split(s, sep) == [[]] + rest;
      } else {
        var parts := [[s[0]] + rest[0]] + rest[1..];
        assert Split(s, sep) == parts;
        if |rest| == 1 {
          assert Join(parts, sep) == [s[0]] + rest[0];
        } else {
          assert parts[1..] == rest[1..];
          assert Join(parts, sep) == [s[0]] + (rest[0] + [sep] + Join(rest[1..], sep));
        }
      }
    }
  }

  /** Pieces free of the separator come back from splitting their join. */
  lemma {:induction false} SplitJoin(parts: seq<string>, sep: char)
    requires |parts| >= 1
    requires forall i :: 0 <= i < |parts| ==> sep !in parts[i]
    ensures Split(Join(parts, sep), sep) == parts
    decreases |parts|
  {
    if |parts| == 1 {
      SplitNoSep(parts[0], sep);
    } else {
      SplitJoin(parts[1..], sep);
      SplitAfter(parts[0], Join(parts[1..], sep), sep);
    }
  }

  /** A string without the separator is a single piece. */
  lemma {:induction false} SplitNoSep(s: string, sep: char)
    requires sep !in s
    ensures Split(s, sep) == [s]
    decreases |s|
  {
    if s != [] {
      SplitNoSep(s[1..], sep);
      assert s[0] != sep;
      assert [s[0]] + s[1..] == s;
    }
  }

  /** Splitting `a + sep + b`, where `a` has no separator, yields `a` first. */
  lemma {:induction false} SplitAfter(a: string, b: string, sep: char)
    requires sep !in a
    ensures Split(a + [sep] + b, sep) == [a] + Split(b, sep)
    decreases |a|
  {
    if a == [] {
      assert ([] + [sep] + b)[1..] == b;
    } else {
      var s := a + [sep] + b;
      SplitAfter(a[1..], b, sep);
      assert s[1..] == a[1..] + [sep] + b;
      assert s[0] == a[0] && a[0] != sep;
      assert [a[0]] + a[1..] == a;
    }
  }

  /** ASCII case folding of one character. */
  function LowerChar(c: char): char {
    if 'A' <= c <= 'Z' then (c as int + 32) as char else c
  }

  /** `s.lower()` restricted to ASCII letters; every other character is kept. */
  function Lower(s: string): (r: string)
    ensures |r| == |s|
    ensures forall i :: 0 <= i < |s| ==> r[i] == LowerChar(s[i])
  {
    seq(|s|, i requires 0 <= i < |s| => LowerChar(s[i]))
  }
}

=== FILE: voice.dfy ===
/** What the voice platform hands the recorders: speakers, raw PCM bytes,
    and the single trailing silence timer both recorder classes use
    (voice_recorder.py:28-33, notebot.py:32-37). Time is an integer count
    of milliseconds. */
module Voice {

  /** One byte of raw 16-bit stereo PCM. */
  type byte = b: int | 0 <= b < 256

  /** A Discord member: display name, numeric id, and whether it is a bot. */
  datatype Member = Member(name: string, id: nat, isBot: bool)

  /** One `(start, end)` pair returned by `detect_nonsilent`. */
  datatype Range = Range(start: int, end: int)

  /** The silence detector and its fixed options (`min_silence_len=1000`,
      `silence_thresh=-40`) are outside the model: a recorder only asks it
      for the non-silent ranges of a buffer. */
  type Detector = seq<byte> -> seq<Range>

  /** What happens to a recorder, one event at a time: a packet arrives
      from the voice sink, or time `at` is reached. */
  datatype Event = Packet(data: seq<byte>, at: int) | Tick(at: int)

  /** `Timer(5.0, ...)`: the quiet period after the most recent packet. */
  const QuietPeriod: nat := 5000

  /** The `silence_timer` slot: either nothing is pending or exactly one
      timer is pending, due at `deadline`. */
  datatype Timer = Idle | Armed(deadline: int) {

    /** The pending timer has run out at time `now`. */
    predicate Due(now: int) {
      Armed? && deadline <= now
    }
  }

  /** `cancel()` on whatever is pending, then start a fresh timer at `now`. */
  function Rearm(t: Timer, now: int): (r: Timer)
    ensures r.Armed? && r.deadline == now + QuietPeriod
    ensures forall later :: r.Due(later) <==> now + QuietPeriod <= later
    ensures !r.Due(now)
  {
    Armed(now + QuietPeriod)
  }
}

=== FILE: wrappers.dfy ===
/** A value that may be absent: a settings key nobody set, a document
    field never written, a query that matched nothing. */
module Wrappers {

  datatype Option<+T> = None | Some(value: T)
}
